=== FILE: README.md ===
# Particle engine model

A Dafny model of the particle engine of the GamingSystemsA3 game
(`ParticleSystem.h` / `ParticleSystem.cpp`). The model covers four parts:

- **The attribute store.** This is the list of particles with their queries and
  list operations: `isEmpty`, `isDead`, `removeDeadParticles`, `addParticle`
  and `reset`.
- **The Snow variant.** This covers its constructor, its spawn rule
  `resetParticle` and its per-frame `update`. An update moves every flake and
  respawns any flake that left its bounding box at the top of the box.
- **The helpers.** These are `BoundingBox::isPointInside`, `GetRandomFloat` and
  `GetRandomVector`.
- **`render`.** It writes the alive particles into a ring-shaped vertex buffer
  one segment (batch) at a time. When a batch fills, its segment is unlocked
  and drawn, and then the next segment is locked. A segment at offset 0 is
  locked with DISCARD and every other segment with NOOVERWRITE.

Everything is pure. A system is an immutable `ParticleSystems.System` record.
The C++ `rand()` is an injected stream `src: nat -> nat` read at a cursor `at`,
and every sampling operation returns the value together with the advanced
cursor (`Sampling.Drawn`). `render` returns a trace of events (`Batching.Event`)
together with the ring state it leaves behind. The trace holds the vertex-buffer
lock, write, unlock and draw calls, bracketed by the render-state setup and
restore. The
virtual `resetParticle`/`update` pair becomes a variant tag
(`ParticleSystems.Variant`) dispatched by `match`. The `DWORD` ring fields are
32-bit naturals with explicit wrap-around (`Batching.AddDWord`).

Modules:

- `Geometry`: vectors, colours, the bounding box.
- `Sampling`: `GetRandomFloat` and `GetRandomVector`.
- `Store`: the particle record, the vertex, and the list operations.
- `SnowVariant`: the Snow variant's spawn rule and update.
- `Batching`: `render` and its trace.
- `ParticleSystems`: the system record and its operations.
- `Scenario`: the configuration `Game::setupParticles` builds.

One frame of the render loop does not always move the offset by one batch.
This model follows the code:

- **One step per full batch.** The offset moves one batch on for every full
  batch drawn (`ParticleSystem.cpp:186`). It then moves one more batch on
  after the loop (`ParticleSystem.cpp:220`). So one frame moves the offset by
  `(alive / batch + 1)` batches (`Batching.FramesAdvance`). It does not always
  move by exactly one batch.
- **Wrapping after N frames.** The rule "offset = N·batch mod capacity after N
  frames from 0" holds exactly when the full batches of the alive particles
  span a whole number of buffers, that is when `(alive / batch)·batch` is a
  multiple of the capacity (`Batching.AlignedLoadFrames`,
  `Batching.FirstFrameAligned`). A light load, with fewer particles alive than
  fit in one batch, is one such case (`Batching.LightLoadFrames`). A full
  buffer of 2048 alive flakes is another (`Scenario.FullBufferFrames`). With
  1300 alive flakes the rule fails at the first frame
  (`Scenario.Load1300Frames`).
- **The offset can equal the capacity.** The final advance does not wrap, so
  between frames the stored offset can equal the capacity. The next frame
  rewinds it (`Scenario.OffsetReachesSize`). So the bound is
  `offset <= capacity`, not `offset < capacity`.

## Model

| member | source | states |
|---|---|---|
| `Geometry.InsideIffClampFixed` | GamingSystemsA3/ParticleSystem.cpp:372-384 | in a well-formed box, a point is inside exactly when clamping it to the box leaves it unchanged (all six comparisons are inclusive) |
| `Geometry.CornersInside` | GamingSystemsA3/ParticleSystem.cpp:372-384 | the box's min and max corners count as inside exactly when the box is well formed |
| `Sampling.Unit` | GamingSystemsA3/ParticleSystem.cpp:366 | `(rand() % 10000) * 0.0001` lies in [0, 1) |
| `Sampling.GetRandomFloat` | GamingSystemsA3/ParticleSystem.cpp:361-369 | an empty or inverted range returns the low bound and calls rand() zero times; otherwise the result lies in [lo, hi), one draw is consumed, and the draw's unit fraction is recoverable as (r - lo) / (hi - lo) |
| `Sampling.GetRandomVector` | GamingSystemsA3/ParticleSystem.cpp:348-356 | each component lies in its own axis extent, and one draw is consumed per non-empty axis |
| `Sampling.GetRandomVectorOrder` | GamingSystemsA3/ParticleSystem.cpp:353-355 | x is sampled first, y from the draws after x's, z from the draws after y's |
| `Store.CountAlive` | GamingSystemsA3/ParticleSystem.h:46 | the number of alive particles is at most the list length |
| `Store.IsEmpty` | GamingSystemsA3/ParticleSystem.cpp:232-235 | true exactly for the empty list |
| `Store.IsDead` | GamingSystemsA3/ParticleSystem.cpp:239-251 | the early-exit scan is true exactly when no particle is alive, equivalently when the alive count is zero (true for the empty list) |
| `Store.AliveOnlyAppend` | GamingSystemsA3/ParticleSystem.cpp:262-274 | compaction of a concatenation is the concatenation of the compactions |
| `Store.AliveOnlyContents` | GamingSystemsA3/ParticleSystem.cpp:256-275 | the compacted list has one entry per alive particle, all alive, every alive particle kept and nothing new added |
| `Store.AliveOnlyStable` | GamingSystemsA3/ParticleSystem.cpp:256-275 | compaction keeps the particles at the alive positions in their original relative order, and those positions are exactly the alive ones |
| `Store.RemoveDeadParticles` | GamingSystemsA3/ParticleSystem.cpp:256-275 | the erase-in-place loop leaves exactly the alive particles in order (the reference filter), as many as were alive, all alive |
| `SnowVariant.ResetParticle` | GamingSystemsA3/ParticleSystem.cpp:296-317 | the flake is alive and white. It sits at the top of the box with x and z inside the box's extents. Its velocity is in (-3, 0] by (-10, 0] by 0. Acceleration, lifetime, age and fade are untouched. Exactly the position's draws plus two are consumed |
| `SnowVariant.ResetParticlePosition` | GamingSystemsA3/ParticleSystem.cpp:300-308 | x is GetRandomFloat over the box's x extent at the first draw, y is the top of the box, and z is GetRandomFloat over the z extent after the x and y draws, as GetRandomVector samples them before y is overwritten |
| `SnowVariant.ResetParticleVelocity` | GamingSystemsA3/ParticleSystem.cpp:311-313 | the velocity is read off the two draws after the position's, scaled by -3 and -10 |
| `SnowVariant.Step` | GamingSystemsA3/ParticleSystem.cpp:326-334 | a particle that stays inside is only moved by velocity times dt, without drawing. One that leaves is respawned |
| `SnowVariant.Update` | GamingSystemsA3/ParticleSystem.cpp:321-336 | every particle is stepped (moved, or respawned if it escaped), the length is kept, and the stream advances by one respawn's draws per escaping particle |
| `SnowVariant.UpdateInOrder` | GamingSystemsA3/ParticleSystem.cpp:324-334 | the list is walked in order: particle i is stepped with the draws that follow the respawns of the escaping particles before it |
| `SnowVariant.UpdateKeepsAlive` | GamingSystemsA3/ParticleSystem.cpp:321-336 | after update, a particle is alive exactly when it was alive before or it escaped and was respawned |
| `SnowVariant.SpawnedIsSettled` | GamingSystemsA3/ParticleSystem.cpp:296-317 | in a well-formed box a respawned flake lies inside the box |
| `SnowVariant.UpdatePreservesSettled` | GamingSystemsA3/ParticleSystem.cpp:321-336 | if every flake is alive, white, inside and falling, that still holds after update: flakes are recycled, never killed |
| `SnowVariant.SteppedFalls` | GamingSystemsA3/ParticleSystem.cpp:326-333 | for dt >= 0, one step of a settled flake leaves it at the top of the box if it escaped and no higher than before otherwise |
| `SnowVariant.UpdateFalls` | GamingSystemsA3/ParticleSystem.cpp:326-333 | for dt >= 0 a flake's height never grows unless it escaped, in which case it restarts at the top |
| `Batching.Render` | GamingSystemsA3/ParticleSystem.cpp:109-228 | an empty list leaves everything alone and makes no device call. Otherwise the frame starts with the render-state setup and ends with its restore. Capacity and batch size are unchanged |
| `Batching.CopyCounts` | GamingSystemsA3/ParticleSystem.cpp:154-200 | one loop iteration keeps the batch counter below the batch size. It draws a full batch only when the counter reaches it |
| `Batching.CopyAllCounts` | GamingSystemsA3/ParticleSystem.cpp:152-202 | over the loop, full batches are drawn one per batch-size alive particles. The cursor ends on the segment reached after those batches, holding the remainder |
| `Batching.RenderDrawCounts` | GamingSystemsA3/ParticleSystem.cpp:146-217 | the draw calls cover alive / batch full batches, then the remainder if non-zero. Together they cover exactly the alive particles |
| `Batching.ExpectedDrawsSum` | GamingSystemsA3/ParticleSystem.cpp:175-217 | the expected draw sizes add up to the alive count |
| `Batching.RenderWrites` | GamingSystemsA3/ParticleSystem.cpp:152-162 | the vertices written are exactly the alive particles' positions and colours, in list order |
| `Batching.CopyAllLocks` | GamingSystemsA3/ParticleSystem.cpp:193-197 | every lock in the loop uses DISCARD exactly at offset 0 |
| `Batching.RenderLocks` | GamingSystemsA3/ParticleSystem.cpp:134-197 | the first lock is at the rewound offset, and every lock uses DISCARD exactly when it starts at offset 0 |
| `Batching.CopyAllDisciplined` | GamingSystemsA3/ParticleSystem.cpp:152-202 | started with its segment locked and part-filled, the loop keeps the discipline: each vertex goes to the next slot of the locked segment, and each full-batch draw covers exactly the batch of slots written since that segment was locked. It ends with the cursor's segment locked, filled to the cursor's count, still below a batch |
| `Batching.RenderDisciplined` | GamingSystemsA3/ParticleSystem.cpp:118-227 | the frame fills each locked segment slot by slot from its start, never more than a batch. Every draw is of the segment just released and covers exactly the vertices written into it since its lock. It never locks twice, never locks or ends with written vertices left undrawn, and ends with nothing locked |
| `Batching.NextSegmentWraps` | GamingSystemsA3/ParticleSystem.cpp:186-191 | on a valid ring the next segment is one batch on, modulo the capacity, and is again a segment start |
| `Batching.IterateWraps` | GamingSystemsA3/ParticleSystem.cpp:186-191 | n full batches move the segment n batches on, modulo the capacity |
| `Batching.CopyAllWithin` | GamingSystemsA3/ParticleSystem.cpp:175-178 | started at a segment start, every full-batch draw of the loop lies inside the buffer and the loop ends at a segment start |
| `Batching.RenderWithin` | GamingSystemsA3/ParticleSystem.cpp:175-217 | on a valid ring every draw call covers a range inside the buffer |
| `Batching.StoredAdvance` | GamingSystemsA3/ParticleSystem.cpp:220 | the final advance from a segment start neither overflows the DWORD nor passes the capacity |
| `Batching.RenderAdvances` | GamingSystemsA3/ParticleSystem.cpp:134-220 | render keeps the ring valid, and it leaves the stored offset one batch past a segment start, so the offset is at most the capacity. It moves the rewound offset (alive / batch + 1) batches on, modulo the capacity |
| `Batching.FramesAdvance` | GamingSystemsA3/ParticleSystem.cpp:134-220 | after n frames over the same list the ring is still valid, and the offset has moved n·(alive / batch + 1) batches on, modulo the capacity |
| `Batching.AlignedLoadFrames` | GamingSystemsA3/ParticleSystem.cpp:134-220 | from offset 0, when (alive / batch)·batch is a multiple of the capacity, the offset the frame after n frames starts at is n·batch modulo the capacity |
| `Batching.FirstFrameAligned` | GamingSystemsA3/ParticleSystem.cpp:134-220 | from offset 0, the second frame starts one batch into the buffer exactly when (alive / batch)·batch is a multiple of the capacity |
| `Batching.LightLoadFrames` | GamingSystemsA3/ParticleSystem.cpp:211-220 | from offset 0 with fewer alive particles than a batch, the offset the frame after n frames starts at is n·batch modulo the capacity |
| `ParticleSystems.ResetParticle` | GamingSystemsA3/ParticleSystem.h:58 | the variant's spawn rule yields a spawned particle, leaves the unwritten fields alone, and consumes the variant's draw count |
| `ParticleSystems.AddParticle` | GamingSystemsA3/ParticleSystem.cpp:70-77 | the list grows by one at the end with the prefix unchanged. The new particle is a freshly spawned one with lifetime and age 0, and the rest of the system is untouched |
| `ParticleSystems.Populate` | GamingSystemsA3/ParticleSystem.cpp:290-291 | n additions append n spawned particles and consume n respawns' draws |
| `ParticleSystems.PopulateInOrder` | GamingSystemsA3/ParticleSystem.cpp:70-77 | the particle added i-th is spawned from the i-th group of respawn draws |
| `ParticleSystems.NewSnow` | GamingSystemsA3/ParticleSystem.cpp:282-292 | the Snow constructor gives point size 1 and a ring of 2048 vertices in batches of 512 at offset 0. It adds max(numParticles, 0) spawned flakes with lifetime and age 0 |
| `ParticleSystems.NewSnowInOrder` | GamingSystemsA3/ParticleSystem.cpp:282-292 | flake i of a new snow system is spawned from the i-th group of one respawn's draws, in the order the constructor adds them |
| `ParticleSystems.ResetAll` | GamingSystemsA3/ParticleSystem.cpp:63-67 | respawning each particle keeps the length, respawns every particle and consumes one respawn's draws per particle |
| `ParticleSystems.ResetAllInOrder` | GamingSystemsA3/ParticleSystem.cpp:63-67 | the list is walked in order: particle i is respawned from the i-th group of respawn draws |
| `ParticleSystems.Reset` | GamingSystemsA3/ParticleSystem.cpp:61-68 | reset respawns every particle in place, touches nothing else, and consumes one respawn's draws per particle |
| `ParticleSystems.Update` | GamingSystemsA3/ParticleSystem.cpp:321-336 | update changes only the particle list and keeps its length. Each particle is moved by velocity times dt, or respawned if that takes it out of the box. The stream advances by one respawn's draws per escaping particle |
| `ParticleSystems.Render` | GamingSystemsA3/ParticleSystem.cpp:109-228 | render changes only the ring and does nothing to an empty system. Otherwise the frame is bracketed by the render-state setup and restore. It writes the alive particles' vertices in order, and with a positive batch it draws them in full batches then the remainder under the locking discipline. On a valid ring it keeps the ring valid and moves the rewound offset (alive / batch + 1) batches on |
| `ParticleSystems.NewSnowSteady` | GamingSystemsA3/ParticleSystem.cpp:282-292 | a snow system built in a well-formed box starts with a valid ring and every flake alive, white, inside and falling |
| `ParticleSystems.SteadyPreserved` | GamingSystemsA3/ParticleSystem.cpp:61-336 | reset, update and render each keep that steady state |
| `ParticleSystems.SteadyNeverDead` | GamingSystemsA3/ParticleSystem.cpp:239-251 | a steady snow system is dead exactly when it is empty |
| `Scenario.GameSnowSpawn` | GamingSystemsA3/Game.cpp:1458-1465 | the game's 5000 flakes all start at height 10 with x and z in [-10, 10). Building them takes exactly 25000 rand() calls |
| `Scenario.GameUpdateFalls` | GamingSystemsA3/Game.cpp:1450-1452 | one update of the game's steady snow puts every flake that left the box back at height 10, and leaves every other flake no higher than before |
| `Scenario.Draws1300` | GamingSystemsA3/ParticleSystem.cpp:146-217 | 1300 alive flakes in batches of 512 give the draw calls 512, 512, 276 |
| `Scenario.InvertedRange` | GamingSystemsA3/ParticleSystem.cpp:363-364 | GetRandomFloat(5, 2) returns 5 and consumes no draw |
| `Scenario.SingleFlakeFrame` | GamingSystemsA3/ParticleSystem.cpp:211-220 | a frame with one alive flake moves the offset exactly one batch on |
| `Scenario.FullBufferFrames` | GamingSystemsA3/ParticleSystem.cpp:134-220 | with 2048 alive flakes, batches of 512 and capacity 2048, frame after frame starts 512 vertices further round the buffer |
| `Scenario.Load1300Frames` | GamingSystemsA3/ParticleSystem.cpp:134-220 | with 1300 alive flakes the second frame does not start at vertex 512 |
| `Scenario.OffsetReachesSize` | GamingSystemsA3/ParticleSystem.cpp:134-220 | four one-flake frames from offset 0 leave the stored offset equal to the capacity 2048 |
| `Scenario.ConsecutiveSlotsDrawn` | GamingSystemsA3/ParticleSystem.cpp:160-178 | two vertices written to slots 0 and 1 of a locked segment and drawn together as two make a disciplined frame |
| `Scenario.OverwriteRejected` | GamingSystemsA3/ParticleSystem.cpp:160-162 | a frame that writes its second vertex over the first, instead of advancing to the next slot, is not disciplined |
| `Scenario.OverdrawRejected` | GamingSystemsA3/ParticleSystem.cpp:211-216 | a draw covering more vertices than were written since the lock is not disciplined |

## Left out

- `init` is not modelled, and neither are the Direct3D vertex buffer and texture creation. They are device and file I/O.
- `preRender` and `postRender` are not modelled: they set device render states. The trace records them only as the `Pre`/`Post` brackets.
- Every device call is assumed to succeed: the `HRESULT`s of `Lock`, `Unlock` and `DrawPrimitive` (`ParticleSystem.cpp:140-144`, `:173-178`, `:193-197`, `:213-216`) are not modelled, because the source never checks them. If the first `Lock` failed, `v` would stay null (`ParticleSystem.cpp:138`) and the writes at `:160-161` would go through it. The trace only describes the path where every call succeeds.
- The `SetTexture`, `SetFVF` and `SetStreamSource` calls at the start of `render` (`ParticleSystem.cpp:126-128`) are not in the trace. They bind device state and do not depend on the particles or the ring.
- `FtoDw` is not modelled: it is a float bit reinterpretation used only for render states.
- `convertCharArrayToLPCWSTR` is not modelled: it is a Windows string conversion.
- The constructor and destructor are not modelled beyond what `Snow` sets, because they only null and release device pointers.
- Floating point is modelled as exact reals. The `0.0001f` scaling and the float rounding of `f * (hi - lo) + lo` are not modelled, so `Sampling.GetRandomFloat` returns a value below `hi` where the float computation might round up to it.
- Access control is not modelled: Dafny modules have no `protected` members, so the model does not capture that only the system may call `removeDeadParticles`.
- The game's `srand(123)` seed is not modelled. The `Scenario` lemmas hold for every rand() stream, so they cover that seed too.
- `rand()` and `srand` are modelled as the injected stream `src` with a cursor, not as global state. Its values are assumed non-negative, as the C library guarantees.
- `Store.Vertices`: it keeps the four-channel colour and does not model the `D3DXCOLOR` to `D3DCOLOR` packing, because that conversion is Direct3D library code.
- `Store.Fresh`: the vector and colour fields that the default `Attribute` constructor leaves uninitialised are modelled as zero. Every path that uses them overwrites them first, except acceleration and colour fade, which the snow variant never reads.
- `Batching.Render` with a batch size of 0 is modelled, but the lemmas about it require a positive batch (`Valid`). With batch 0 the C++ loop would never see a full batch, short of the DWORD counter wrapping after 2^32 alive particles.
- The `_origin`, `_emitRate` and `_maxParticles` fields are not modelled because nothing in the engine reads them.
- `BoundingSphere` and the rest of the game are not part of this model. That covers rendering of meshes, camera, input, mirrors and picking.

=== FILE: batching.dfy ===
/** ParticleSystem::render as a pure function: the device calls it makes are
    returned as a trace of events, and the ring-buffer offset it leaves behind
    is returned with it. */
module Batching {
  import opened Store

  /** The ring fields are DWORDs: unsigned 32-bit, wrapping on overflow. */
  const DWordModulus: nat := 0x1_0000_0000
  type DWord = x: nat | x < DWordModulus

  function AddDWord(a: DWord, b: DWord): DWord
  {
    (a + b) % DWordModulus
  }

  /** The vertex-buffer state kept between frames: capacity in vertices, the
      offset of the next segment, and the number of vertices per segment. */
  datatype Ring = Ring(size: DWord, offset: DWord, batch: DWord)

  datatype LockMode = Discard | NoOverwrite

  /** What render asks of the device. Pre and Post stand for the render-state
      changes of preRender and postRender; Write is one vertex stored into the
      locked segment at the given buffer slot. */
  datatype Event =
    | Pre
    | Lock(start: DWord, mode: LockMode)
    | Write(slot: nat, vertex: Vertex)
    | Unlock
    | Draw(start: DWord, count: DWord)
    | Post

  /** The lock flag: NOOVERWRITE for a non-zero offset, DISCARD at offset 0. */
  function ModeFor(offset: DWord): LockMode
  {
    if offset != 0 then NoOverwrite else Discard
  }

  /** Start over at the beginning once the offset has reached the end. */
  function Rewind(size: DWord, offset: DWord): DWord
  {
    if offset >= size then 0 else offset
  }

  /** The segment after a full batch: advance by one batch, wrapping at the end. */
  function NextSegment(size: DWord, batch: DWord, offset: DWord): DWord
  {
    Rewind(size, AddDWord(offset, batch))
  }

  /** The segment reached after n full batches. */
  function Iterate(size: DWord, batch: DWord, offset: DWord, n: nat): DWord
    decreases n
  {
    if n == 0 then offset else Iterate(size, batch, NextSegment(size, batch, offset), n - 1)
  }

  /** The loop state of render: the offset of the locked segment and how many
      vertices the current batch already holds. */
  datatype Cursor = Cursor(offset: DWord, count: DWord)

  datatype Pass = Pass(events: seq<Event>, cursor: Cursor)

  /** One iteration of render's loop. A dead particle is skipped. An alive one is
      written to the next slot; if that fills the batch, the segment is unlocked
      and drawn and the next segment is locked. */
  function Copy(size: DWord, batch: DWord, c: Cursor, a: Attribute): Pass
  {
    if !a.isAlive then Pass([], c)
    else
      var written := Write(c.offset + c.count, ToVertex(a));
      var filled := AddDWord(c.count, 1);
      if filled == batch then
        var next := NextSegment(size, batch, c.offset);
        Pass([written, Unlock, Draw(c.offset, batch), Lock(next, ModeFor(next))], Cursor(next, 0))
      else
        Pass([written], Cursor(c.offset, filled))
  }

  /** render's loop over the whole list, in list order. */
  function CopyAll(size: DWord, batch: DWord, c: Cursor, ps: seq<Attribute>): Pass
    decreases |ps|
  {
    if |ps| == 0 then Pass([], c)
    else
      var first := Copy(size, batch, c, ps[0]);
      var rest := CopyAll(size, batch, first.cursor, ps[1..]);
      Pass(first.events + rest.events, rest.cursor)
  }

  datatype Frame = Frame(events: seq<Event>, ring: Ring)

  /** Before the loop: the render states, then the lock of the first segment. */
  function Opening(start: DWord): seq<Event>
  {
    [Pre, Lock(start, ModeFor(start))]
  }

  /** After the loop: unlock, draw the partly filled batch if it holds any
      vertex, restore the render states. */
  function Closing(last: Cursor): seq<Event>
  {
    [Unlock] + (if last.count != 0 then [Draw(last.offset, last.count)] else []) + [Post]
  }

  /** ParticleSystem::render. An empty list does nothing. Otherwise: rewind the
      offset if it reached the end, lock the first segment, run the loop, unlock,
      draw the partly filled last batch if it holds anything, and advance the
      offset by one more batch without wrapping. */
  function Render(ring: Ring, ps: seq<Attribute>): (f: Frame)
    ensures |ps| == 0 ==> f == Frame([], ring)
    ensures |ps| > 0 ==> |f.events| >= 4 && f.events[0] == Pre && f.events[|f.events| - 1] == Post
    ensures f.ring.size == ring.size && f.ring.batch == ring.batch
  {
    if |ps| == 0 then Frame([], ring)
    else
      var start := Rewind(ring.size, ring.offset);
      var body := CopyAll(ring.size, ring.batch, Cursor(start, 0), ps);
      Frame(Opening(start) + body.events + Closing(body.cursor),
            Ring(ring.size, AddDWord(body.cursor.offset, ring.batch), ring.batch))
  }

  // ---------------------------------------------------------------------------
  // Views of a trace

  /** The vertex counts of the draw calls, in order. */
  function DrawCounts(es: seq<Event>): seq<nat>
  {
    if |es| == 0 then []
    else (if es[0].Draw? then [es[0].count as nat] else []) + DrawCounts(es[1..])
  }

  /** The vertices written, in order. */
  function Written(es: seq<Event>): seq<Vertex>
  {
    if |es| == 0 then []
    else (if es[0].Write? then [es[0].vertex] else []) + Written(es[1..])
  }

  function Repeat(x: nat, n: nat): seq<nat>
  {
    if n == 0 then [] else [x] + Repeat(x, n - 1)
  }

  function Sum(s: seq<nat>): nat
  {
    if |s| == 0 then 0 else s[0] + Sum(s[1..])
  }

  /** The draw sizes render is meant to produce for k alive particles: k / batch
      full batches, then the remainder if there is one. */
  function ExpectedDraws(k: nat, batch: nat): seq<nat>
    requires 0 < batch
  {
    Repeat(batch, k / batch) + (if k % batch != 0 then [k % batch] else [])
  }

  /** Every lock uses DISCARD exactly when it starts at offset 0. */
  predicate LocksMatchOffset(es: seq<Event>)
  {
    forall i :: 0 <= i < |es| && es[i].Lock? ==> (es[i].mode == Discard <==> es[i].start == 0)
  }

  /** Every draw covers a range inside the buffer. */
  predicate DrawsWithin(es: seq<Event>, size: nat)
  {
    forall i :: 0 <= i < |es| && es[i].Draw? ==> es[i].start as nat + es[i].count as nat <= size
  }

  /** The state of the vertex buffer as the trace goes by: not locked yet, locked
      at a segment with `filled` vertices written since the lock, or released
      with `filled` vertices written and not yet drawn. Fault records a call
      made out of turn. */
  datatype LockState = Idle | Locked(start: nat, filled: nat) | Released(start: nat, filled: nat) | Fault

  /** Nothing is locked and everything written has been drawn. */
  predicate Drained(b: LockState)
  {
    b.Idle? || (b.Released? && b.filled == 0)
  }

  /** The locking discipline. A lock only when nothing is locked and nothing
      written is left undrawn. Writes fill the locked segment slot by slot from
      its start, at most a batch of them. An unlock only of a locked segment. A
      draw only after the unlock, of the segment just released, covering
      exactly the vertices written into it, at least one. The render-state
      brackets only when nothing is locked and nothing is left undrawn. */
  function Apply(batch: nat, b: LockState, e: Event): LockState
  {
    match e
    case Pre => if b.Idle? then Idle else Fault
    case Lock(s, _) => if Drained(b) then Locked(s, 0) else Fault
    case Write(slot, _) =>
      if b.Locked? && b.filled < batch && slot == b.start + b.filled
      then Locked(b.start, b.filled + 1) else Fault
    case Unlock => if b.Locked? then Released(b.start, b.filled) else Fault
    case Draw(s, n) =>
      if b.Released? && s == b.start && n == b.filled && 0 < n then Released(b.start, 0) else Fault
    case Post => if Drained(b) then Idle else Fault
  }

  function Run(batch: nat, b: LockState, es: seq<Event>): LockState
    decreases |es|
  {
    if |es| == 0 then b else Run(batch, Apply(batch, b, es[0]), es[1..])
  }

  /** A frame's trace keeps the discipline and leaves nothing locked. */
  predicate Disciplined(batch: nat, es: seq<Event>)
  {
    Run(batch, Idle, es) == Idle
  }

  // ---------------------------------------------------------------------------
  // Trace algebra

  lemma {:induction false} DrawCountsAppend(a: seq<Event>, b: seq<Event>)
    ensures DrawCounts(a + b) == DrawCounts(a) + DrawCounts(b)
    decreases |a|
  {
    if |a| == 0 {
      assert a + b == b;
    } else {
      var head := if a[0].Draw? then [a[0].count as nat] else [];
      assert (a + b)[0] == a[0] && (a + b)[1..] == a[1..] + b;
      assert DrawCounts(a + b) == head + DrawCounts(a[1..] + b);
      assert DrawCounts(a) == head + DrawCounts(a[1..]);
      DrawCountsAppend(a[1..], b);
    }
  }

  lemma {:induction false} WrittenAppend(a: seq<Event>, b: seq<Event>)
    ensures Written(a + b) == Written(a) + Written(b)
    decreases |a|
  {
    if |a| == 0 {
      assert a + b == b;
    } else {
      var head := if a[0].Write? then [a[0].vertex] else [];
      assert (a + b)[0] == a[0] && (a + b)[1..] == a[1..] + b;
      assert Written(a + b) == head + Written(a[1..] + b);
      assert Written(a) == head + Written(a[1..]);
      WrittenAppend(a[1..], b);
    }
  }

  lemma {:induction false} RunAppend(batch: nat, s: LockState, a: seq<Event>, b: seq<Event>)
    ensures Run(batch, s, a + b) == Run(batch, Run(batch, s, a), b)
    decreases |a|
  {
    if |a| == 0 {
      assert a + b == b;
    } else {
      assert (a + b)[0] == a[0] && (a + b)[1..] == a[1..] + b;
      assert Run(batch, s, a + b) == Run(batch, Apply(batch, s, a[0]), a[1..] + b);
      RunAppend(batch, Apply(batch, s, a[0]), a[1..], b);
    }
  }

  lemma {:induction false} RepeatSum(x: nat, n: nat)
    ensures Sum(Repeat(x, n)) == n * x
    decreases n
  {
    if n > 0 {
      RepeatSum(x, n - 1);
    }
  }

  lemma {:induction false} SumAppend(a: seq<nat>, b: seq<nat>)
    ensures Sum(a + b) == Sum(a) + Sum(b)
    decreases |a|
  {
    if |a| == 0 {
      assert a + b == b;
    } else {
      assert (a + b)[0] == a[0] && (a + b)[1..] == a[1..] + b;
      assert Sum(a + b) == a[0] + Sum(a[1..] + b);
      SumAppend(a[1..], b);
    }
  }

  // ---------------------------------------------------------------------------
  // Arithmetic

  lemma MulMono(x: int, y: int, b: nat)
    requires x <= y
    ensures x * b <= y * b
  {
    assert y * b - x * b == (y - x) * b;
  }

  /** Euclidean division has one quotient and one remainder. */
  lemma DivUnique(a: nat, b: nat, q: nat, r: nat)
    requires 0 < b && r < b && a == q * b + r
    ensures a / b == q && a % b == r
  {
    var q' := a / b;
    var r' := a % b;
    assert a == q' * b + r';
    if q' < q {
      MulMono(q' + 1, q, b);
    } else if q' > q {
      MulMono(q + 1, q', b);
    }
  }

  lemma MulSucc(j: nat, b: nat)
    ensures (j + 1) * b == j * b + b
  {
  }

  /** Adding whole multiples of m does not change a remainder mod m. */
  lemma ModAddMultiple(a: nat, t: nat, m: nat)
    requires 0 < m
    ensures (a + t * m) % m == a % m
  {
    var q := a / m;
    assert a == q * m + a % m;
    assert a + t * m == (q + t) * m + a % m;
    DivUnique(a + t * m, m, q + t, a % m);
  }

  lemma DivStep(a: nat, b: nat)
    requires 0 < b
    ensures (a + b) / b == a / b + 1 && (a + b) % b == a % b
  {
    var q := a / b;
    var r := a % b;
    assert a == q * b + r;
    assert a + b == (q + 1) * b + r;
    DivUnique(a + b, b, q + 1, r);
  }

  lemma ModAddLeft(a: nat, b: nat, m: nat)
    requires 0 < m
    ensures (a % m + b) % m == (a + b) % m
  {
    var q := a / m;
    assert a == q * m + a % m;
    var s := a % m + b;
    var q2 := s / m;
    assert s == q2 * m + s % m;
    assert (q + q2) * m == q * m + q2 * m;
    assert a + b == (q + q2) * m + s % m;
    DivUnique(a + b, m, q + q2, s % m);
  }

  /** A batch-aligned offset below a batch-aligned size leaves room for a whole batch. */
  lemma AlignedRoom(o: nat, size: nat, batch: nat)
    requires 0 < batch && o < size && o % batch == 0 && size % batch == 0
    ensures o + batch <= size
  {
    var q := o / batch;
    var p := size / batch;
    assert o == q * batch;
    assert size == p * batch;
    if p <= q {
      MulMono(p, q, batch);
    }
    MulMono(q + 1, p, batch);
    assert (q + 1) * batch == o + batch;
  }

  // ---------------------------------------------------------------------------
  // The ring configuration

  /** The configuration the batching relies on: a non-empty buffer holding a
      whole number of non-empty batches, the stored offset batch-aligned and at
      most the capacity, and no 32-bit overflow from advancing past the end. */
  predicate Valid(ring: Ring)
  {
    && 0 < ring.batch && 0 < ring.size && ring.size % ring.batch == 0
    && ring.size + ring.batch < DWordModulus
    && ring.offset <= ring.size && ring.offset % ring.batch == 0
  }

  /** The fixed part of a valid ring. */
  predicate Layout(size: nat, batch: nat)
  {
    0 < batch && 0 < size && size % batch == 0 && size + batch < DWordModulus
  }

  /** A segment start: batch-aligned and inside the buffer. */
  predicate Segment(size: nat, batch: nat, o: nat)
  {
    0 < batch && o < size && o % batch == 0
  }

  lemma NextSegmentWraps(size: DWord, batch: DWord, o: DWord)
    requires Layout(size, batch) && Segment(size, batch, o)
    ensures NextSegment(size, batch, o) == (o + batch) % size
    ensures Segment(size, batch, NextSegment(size, batch, o))
  {
    AlignedRoom(o, size, batch);
    assert AddDWord(o, batch) == o + batch;
    DivStep(o, batch);
    if o + batch < size {
      DivUnique(o + batch, size, 0, o + batch);
    } else {
      DivUnique(o + batch, size, 1, 0);
    }
  }

  /** After n full batches from a segment the offset is n batches further round the ring. */
  lemma {:induction false} IterateWraps(size: DWord, batch: DWord, o: DWord, n: nat)
    requires Layout(size, batch) && Segment(size, batch, o)
    ensures Iterate(size, batch, o, n) == (o + n * batch) % size
    ensures Segment(size, batch, Iterate(size, batch, o, n))
    decreases n
  {
    if n == 0 {
      DivUnique(o, size, 0, o);
    } else {
      var next := NextSegment(size, batch, o);
      NextSegmentWraps(size, batch, o);
      IterateWraps(size, batch, next, n - 1);
      ModAddLeft(o + batch, (n - 1) * batch, size);
      assert o + batch + (n - 1) * batch == o + n * batch;
    }
  }

  // ---------------------------------------------------------------------------
  // One iteration

  lemma RunCons(batch: nat, s: LockState, e: Event, es: seq<Event>)
    ensures Run(batch, s, [e] + es) == Run(batch, Apply(batch, s, e), es)
  {
    assert ([e] + es)[1..] == es;
  }

  /** A call made out of turn cannot be made good by later calls. */
  lemma {:induction false} FaultStays(batch: nat, es: seq<Event>)
    ensures Run(batch, Fault, es) == Fault
    decreases |es|
  {
    if |es| > 0 {
      FaultStays(batch, es[1..]);
    }
  }

  lemma RunOne(batch: nat, s: LockState, e: Event)
    ensures Run(batch, s, [e]) == Apply(batch, s, e)
  {
    RunCons(batch, s, e, []);
    assert [e] + [] == [e];
  }

  /** One iteration's draws and cursor: a full batch is drawn whole and the
      cursor moves to the next segment with an empty batch. */
  lemma CopyCounts(size: DWord, batch: DWord, c: Cursor, a: Attribute)
    requires c.count < batch
    ensures var p := Copy(size, batch, c, a);
            && (!a.isAlive ==> p == Pass([], c))
            && (a.isAlive && c.count + 1 == batch ==>
                  DrawCounts(p.events) == [batch as nat]
                  && p.cursor == Cursor(NextSegment(size, batch, c.offset), 0))
            && (a.isAlive && c.count + 1 < batch ==>
                  DrawCounts(p.events) == [] && p.cursor == Cursor(c.offset, c.count + 1))
  {
    var p := Copy(size, batch, c, a);
    if a.isAlive {
      assert AddDWord(c.count, 1) == c.count + 1;
      var es := p.events;
      if c.count + 1 == batch {
        assert es[1..][1..][1..][1..] == [];
        assert DrawCounts(es[1..][1..][1..]) == [];
        assert DrawCounts(es[1..][1..]) == [batch as nat];
      } else {
        assert es[1..] == [];
      }
    }
  }

  /** One iteration keeps the discipline: it starts and ends with a segment locked. */
  lemma CopyDisciplined(size: DWord, batch: DWord, c: Cursor, a: Attribute)
    requires c.count < batch
    ensures var p := Copy(size, batch, c, a);
            Run(batch, Locked(c.offset, c.count), p.events) == Locked(p.cursor.offset, p.cursor.count)
            && p.cursor.count < batch
  {
    var p := Copy(size, batch, c, a);
    if a.isAlive {
      assert AddDWord(c.count, 1) == c.count + 1;
      var w := Write(c.offset + c.count, ToVertex(a));
      if c.count + 1 == batch {
        var next := NextSegment(size, batch, c.offset);
        var l := Lock(next, ModeFor(next));
        assert p.events == [w] + ([Unlock] + ([Draw(c.offset, batch)] + [l]));
        RunCons(batch, Locked(c.offset, c.count), w, [Unlock] + ([Draw(c.offset, batch)] + [l]));
        RunCons(batch, Locked(c.offset, batch), Unlock, [Draw(c.offset, batch)] + [l]);
        RunCons(batch, Released(c.offset, batch), Draw(c.offset, batch), [l]);
        RunOne(batch, Released(c.offset, 0), l);
      } else {
        RunOne(batch, Locked(c.offset, c.count), w);
      }
    }
  }

  // ---------------------------------------------------------------------------
  // The loop

  /** A full batch at the front adds one draw of batch vertices and one
      segment step, and leaves the remainder as it was. */
  lemma BatchStep(size: DWord, batch: DWord, o: DWord, k: nat)
    requires 0 < batch
    ensures (k + batch) % batch == k % batch
    ensures Repeat(batch, (k + batch) / batch) == [batch as nat] + Repeat(batch, k / batch)
    ensures Iterate(size, batch, o, (k + batch) / batch)
            == Iterate(size, batch, NextSegment(size, batch, o), k / batch)
  {
    DivStep(k, batch);
  }

  /** Running the loop over a list with c.count vertices already batched makes
      (c.count + k) / batch full draws of batch vertices each, k being the number
      of alive particles, and leaves the remainder in the open batch. */
  lemma {:induction false} CopyAllCounts(size: DWord, batch: DWord, c: Cursor, ps: seq<Attribute>)
    requires c.count < batch
    ensures var r := CopyAll(size, batch, c, ps);
            var n := c.count + CountAlive(ps);
            && DrawCounts(r.events) == Repeat(batch, n / batch)
            && r.cursor.count == n % batch
            && r.cursor.offset == Iterate(size, batch, c.offset, n / batch)
    decreases |ps|
  {
    if |ps| == 0 {
      DivUnique(c.count, batch, 0, c.count);
    } else {
      var first := Copy(size, batch, c, ps[0]);
      var rest := ps[1..];
      var k := CountAlive(rest);
      CopyCounts(size, batch, c, ps[0]);
      CopyAllCounts(size, batch, first.cursor, rest);
      DrawCountsAppend(first.events, CopyAll(size, batch, first.cursor, rest).events);
      if ps[0].isAlive && c.count + 1 == batch {
        assert c.count + CountAlive(ps) == k + batch;
        BatchStep(size, batch, c.offset, k);
      } else {
        assert c.count + CountAlive(ps) == first.cursor.count + k;
      }
    }
  }

  /** The loop writes the alive particles' vertices, in list order. */
  lemma {:induction false} CopyAllWrites(size: DWord, batch: DWord, c: Cursor, ps: seq<Attribute>)
    ensures Written(CopyAll(size, batch, c, ps).events) == Vertices(AliveOnly(ps))
    decreases |ps|
  {
    if |ps| > 0 {
      var first := Copy(size, batch, c, ps[0]);
      var head := if ps[0].isAlive then [ps[0]] else [];
      CopyAllWrites(size, batch, first.cursor, ps[1..]);
      WrittenAppend(first.events, CopyAll(size, batch, first.cursor, ps[1..]).events);
      VerticesAppend(head, AliveOnly(ps[1..]));
      assert AliveOnly(ps) == head + AliveOnly(ps[1..]);
      var es := first.events;
      if ps[0].isAlive && AddDWord(c.count, 1) == batch {
        assert Written(es[1..][1..][1..]) == [];
        assert Written(es[1..]) == [];
      } else if ps[0].isAlive {
        assert es[1..] == [];
      }
      assert Written(first.events) == Vertices(head);
    }
  }

  /** Every lock the loop takes has the mode its offset calls for. */
  lemma {:induction false} CopyAllLocks(size: DWord, batch: DWord, c: Cursor, ps: seq<Attribute>)
    ensures LocksMatchOffset(CopyAll(size, batch, c, ps).events)
    decreases |ps|
  {
    if |ps| > 0 {
      var first := Copy(size, batch, c, ps[0]);
      var rest := CopyAll(size, batch, first.cursor, ps[1..]);
      CopyAllLocks(size, batch, first.cursor, ps[1..]);
      assert LocksMatchOffset(first.events);
      var all := first.events + rest.events;
      forall i | 0 <= i < |all| && all[i].Lock?
        ensures all[i].mode == Discard <==> all[i].start == 0
      {
        if i >= |first.events| {
          assert all[i] == rest.events[i - |first.events|];
        }
      }
    }
  }

  /** The loop keeps the locking discipline: started with a segment locked and a
      part-filled batch, it ends with a (possibly later) segment locked. */
  lemma {:induction false} CopyAllDisciplined(size: DWord, batch: DWord, c: Cursor, ps: seq<Attribute>)
    requires c.count < batch
    ensures var r := CopyAll(size, batch, c, ps);
            && Run(batch, Locked(c.offset, c.count), r.events) == Locked(r.cursor.offset, r.cursor.count)
            && r.cursor.count < batch
    decreases |ps|
  {
    if |ps| > 0 {
      var first := Copy(size, batch, c, ps[0]);
      var rest := CopyAll(size, batch, first.cursor, ps[1..]);
      CopyDisciplined(size, batch, c, ps[0]);
      CopyAllDisciplined(size, batch, first.cursor, ps[1..]);
      RunAppend(batch, Locked(c.offset, c.count), first.events, rest.events);
    }
  }

  /** Started at a segment of a valid ring, every draw of the loop stays inside
      the buffer and the loop ends at a segment. */
  lemma {:induction false} CopyAllWithin(size: DWord, batch: DWord, c: Cursor, ps: seq<Attribute>)
    requires Layout(size, batch) && Segment(size, batch, c.offset)
    ensures var r := CopyAll(size, batch, c, ps);
            DrawsWithin(r.events, size) && Segment(size, batch, r.cursor.offset)
    decreases |ps|
  {
    if |ps| > 0 {
      var first := Copy(size, batch, c, ps[0]);
      var rest := CopyAll(size, batch, first.cursor, ps[1..]);
      NextSegmentWraps(size, batch, c.offset);
      AlignedRoom(c.offset, size, batch);
      assert DrawsWithin(first.events, size);
      CopyAllWithin(size, batch, first.cursor, ps[1..]);
      var all := first.events + rest.events;
      forall i | 0 <= i < |all| && all[i].Draw?
        ensures all[i].start as nat + all[i].count as nat <= size
      {
        if i >= |first.events| {
          assert all[i] == rest.events[i - |first.events|];
        }
      }
    }
  }

  // ---------------------------------------------------------------------------
  // Properties of render

  /** The expected draw sizes add up to the number of particles drawn. */
  lemma ExpectedDrawsSum(k: nat, b: nat)
    requires 0 < b
    ensures Sum(ExpectedDraws(k, b)) == k
  {
    RepeatSum(b, k / b);
    SumAppend(Repeat(b, k / b), if k % b != 0 then [k % b] else []);
    assert k == (k / b) * b + k % b;
  }

  /** The draws of a frame are the loop's draws followed by the partial batch's. */
  lemma {:induction false} FrameDrawCounts(start: DWord, body: seq<Event>, last: Cursor)
    ensures DrawCounts(Opening(start) + body + Closing(last))
            == DrawCounts(body) + (if last.count != 0 then [last.count as nat] else [])
  {
    DrawCountsAppend(Opening(start), body);
    DrawCountsAppend(Opening(start) + body, Closing(last));
    assert DrawCounts(Opening(start)) == [];
    var partial := if last.count != 0 then [Draw(last.offset, last.count)] else [];
    DrawCountsAppend([Unlock], partial + [Post]);
    DrawCountsAppend(partial, [Post]);
    assert Closing(last) == [Unlock] + (partial + [Post]);
  }

  /** With k alive particles render draws k / batch full batches and then the
      remainder, if any: the draw sizes add up to k. */
  lemma {:induction false} RenderDrawCounts(ring: Ring, ps: seq<Attribute>)
    requires 0 < ring.batch
    ensures DrawCounts(Render(ring, ps).events) == ExpectedDraws(CountAlive(ps), ring.batch)
    ensures Sum(DrawCounts(Render(ring, ps).events)) == CountAlive(ps)
  {
    var k := CountAlive(ps);
    var b := ring.batch;
    if |ps| > 0 {
      var start := Rewind(ring.size, ring.offset);
      var body := CopyAll(ring.size, b, Cursor(start, 0), ps);
      CopyAllCounts(ring.size, b, Cursor(start, 0), ps);
      FrameDrawCounts(start, body.events, body.cursor);
    } else {
      assert k == 0;
    }
    ExpectedDrawsSum(k, b);
  }

  /** render writes exactly the alive particles' positions and colours, in list order. */
  lemma {:induction false} RenderWrites(ring: Ring, ps: seq<Attribute>)
    ensures Written(Render(ring, ps).events) == Vertices(AliveOnly(ps))
  {
    if |ps| > 0 {
      var start := Rewind(ring.size, ring.offset);
      var body := CopyAll(ring.size, ring.batch, Cursor(start, 0), ps);
      var last := body.cursor;
      CopyAllWrites(ring.size, ring.batch, Cursor(start, 0), ps);
      WrittenAppend(Opening(start), body.events);
      WrittenAppend(Opening(start) + body.events, Closing(last));
      assert Written(Opening(start)) == [];
      var partial := if last.count != 0 then [Draw(last.offset, last.count)] else [];
      WrittenAppend([Unlock], partial + [Post]);
      WrittenAppend(partial, [Post]);
      assert [Unlock] + partial + [Post] == [Unlock] + (partial + [Post]);
    } else {
      AliveOnlyContents(ps);
    }
  }

  /** render's first lock starts at the stored offset, or at 0 if that reached
      the end, and every lock is DISCARD exactly at offset 0. */
  lemma {:induction false} RenderLocks(ring: Ring, ps: seq<Attribute>)
    requires |ps| > 0
    ensures var es := Render(ring, ps).events;
            && es[1] == Lock(if ring.offset >= ring.size then 0 else ring.offset,
                             if ring.offset >= ring.size || ring.offset == 0 then Discard else NoOverwrite)
            && LocksMatchOffset(es)
  {
    var start := Rewind(ring.size, ring.offset);
    var body := CopyAll(ring.size, ring.batch, Cursor(start, 0), ps);
    CopyAllLocks(ring.size, ring.batch, Cursor(start, 0), ps);
    var head := Opening(start);
    var tail := Closing(body.cursor);
    var es := head + body.events + tail;
    forall i | 0 <= i < |es| && es[i].Lock?
      ensures es[i].mode == Discard <==> es[i].start == 0
    {
      if 2 <= i < 2 + |body.events| {
        assert es[i] == body.events[i - 2];
      }
    }
  }

  /** render keeps the locking discipline: every lock is matched by one unlock,
      vertices go only into the locked segment, every draw follows the unlock of
      the segment it draws, and nothing is left locked. */
  lemma {:induction false} RenderDisciplined(ring: Ring, ps: seq<Attribute>)
    requires 0 < ring.batch
    ensures Disciplined(ring.batch, Render(ring, ps).events)
  {
    if |ps| > 0 {
      var b := ring.batch;
      var start := Rewind(ring.size, ring.offset);
      var body := CopyAll(ring.size, b, Cursor(start, 0), ps);
      CopyAllDisciplined(ring.size, b, Cursor(start, 0), ps);
      OpeningRun(b, start);
      ClosingRun(b, body.cursor);
      RunAppend(b, Idle, Opening(start), body.events);
      RunAppend(b, Idle, Opening(start) + body.events, Closing(body.cursor));
    }
  }

  /** The frame's opening locks its first segment. */
  lemma OpeningRun(b: nat, start: DWord)
    ensures Run(b, Idle, Opening(start)) == Locked(start, 0)
  {
    var lock := Lock(start, ModeFor(start));
    RunCons(b, Idle, Pre, [lock]);
    RunOne(b, Idle, lock);
  }

  /** The frame's closing releases the locked segment, draws its part-filled
      batch if any, and leaves nothing locked. */
  lemma ClosingRun(b: nat, last: Cursor)
    requires last.count < b
    ensures Run(b, Locked(last.offset, last.count), Closing(last)) == Idle
  {
    var partial := if last.count != 0 then [Draw(last.offset, last.count)] else [];
    assert Closing(last) == [Unlock] + (partial + [Post]);
    RunCons(b, Locked(last.offset, last.count), Unlock, partial + [Post]);
    RunAppend(b, Released(last.offset, last.count), partial, [Post]);
    if last.count != 0 {
      RunOne(b, Released(last.offset, last.count), Draw(last.offset, last.count));
      RunOne(b, Released(last.offset, 0), Post);
    } else {
      RunOne(b, Released(last.offset, 0), Post);
    }
  }

  /** The closing of a frame draws inside the buffer when its cursor is at a segment. */
  lemma ClosingWithin(size: DWord, batch: DWord, last: Cursor)
    requires Layout(size, batch) && Segment(size, batch, last.offset) && last.count < batch
    ensures DrawsWithin(Closing(last), size)
  {
    AlignedRoom(last.offset, size, batch);
  }

  lemma {:induction false} WithinAppend(a: seq<Event>, b: seq<Event>, size: nat)
    requires DrawsWithin(a, size) && DrawsWithin(b, size)
    ensures DrawsWithin(a + b, size)
  {
    var all := a + b;
    forall i | 0 <= i < |all| && all[i].Draw?
      ensures all[i].start as nat + all[i].count as nat <= size
    {
      if i >= |a| {
        assert all[i] == b[i - |a|];
      }
    }
  }

  /** render on a valid ring: every draw lies inside the buffer. */
  lemma {:induction false} RenderWithin(ring: Ring, ps: seq<Attribute>)
    requires Valid(ring)
    ensures DrawsWithin(Render(ring, ps).events, ring.size)
  {
    if |ps| > 0 {
      var size, b := ring.size, ring.batch;
      var start := Rewind(size, ring.offset);
      var body := CopyAll(size, b, Cursor(start, 0), ps);
      RewindSegment(ring);
      CopyAllWithin(size, b, Cursor(start, 0), ps);
      CopyAllDisciplined(size, b, Cursor(start, 0), ps);
      ClosingWithin(size, b, body.cursor);
      assert DrawsWithin(Opening(start), size);
      WithinAppend(Opening(start), body.events, size);
      WithinAppend(Opening(start) + body.events, Closing(body.cursor), size);
    }
  }

  /** The segment a frame starts at on a valid ring. */
  lemma RewindSegment(ring: Ring)
    requires Valid(ring)
    ensures Segment(ring.size, ring.batch, Rewind(ring.size, ring.offset))
  {
    if ring.offset >= ring.size {
      DivUnique(0, ring.batch, 0, 0);
    }
  }

  /** Storing one batch past a segment and rewinding it on the next entry is
      advancing the segment by one batch round the ring. */
  lemma StoredAdvance(size: DWord, b: DWord, o: DWord)
    requires Layout(size, b) && Segment(size, b, o)
    ensures o + b <= size && (o + b) % b == 0
    ensures AddDWord(o, b) == o + b
    ensures Rewind(size, AddDWord(o, b)) == (o + b) % size
  {
    AlignedRoom(o, size, b);
    DivStep(o, b);
    if o + b < size {
      DivUnique(o + b, size, 0, o + b);
    } else {
      DivUnique(o + b, size, 1, 0);
    }
  }

  /** Moving j batches round the ring and then one more is moving j + 1 batches. */
  lemma RoundStep(start: nat, j: nat, b: nat, size: nat)
    requires 0 < size
    ensures ((start + j * b) % size + b) % size == (start + (j + 1) * b) % size
  {
    ModAddLeft(start + j * b, b, size);
    MulSucc(j, b);
  }

  /** The segment j batches round from start, stored one batch on and rewound,
      is j + 1 batches round from start. */
  lemma StoredRound(size: DWord, b: DWord, start: nat, j: nat, o: DWord)
    requires Layout(size, b) && Segment(size, b, o) && o == (start + j * b) % size
    ensures Rewind(size, AddDWord(o, b)) == (start + (j + 1) * b) % size
  {
    StoredAdvance(size, b, o);
    RoundStep(start, j, b, size);
  }

  /** On a valid ring, render leaves the offset one batch past the last segment
      it locked, without wrapping, so it may equal the size; the ring stays
      valid, and the next frame starts (k / batch + 1) batches further round the
      ring, k being the number of alive particles. */
  lemma {:induction false} RenderAdvances(ring: Ring, ps: seq<Attribute>)
    requires Valid(ring) && |ps| > 0
    ensures var f := Render(ring, ps);
            && Valid(f.ring)
            && ring.batch <= f.ring.offset
            && Segment(ring.size, ring.batch, f.ring.offset - ring.batch)
            && Rewind(ring.size, f.ring.offset)
               == (Rewind(ring.size, ring.offset) + FrameStep(ring.batch, CountAlive(ps))) % ring.size
  {
    var j := FullBatches(CountAlive(ps), ring.batch);
    var start := Rewind(ring.size, ring.offset);
    var last := CopyAll(ring.size, ring.batch, Cursor(start, 0), ps).cursor;
    LastSegment(ring, ps);
    StoredAdvance(ring.size, ring.batch, last.offset);
    StoredRound(ring.size, ring.batch, start, j, last.offset);
    assert Render(ring, ps).ring == Ring(ring.size, AddDWord(last.offset, ring.batch), ring.batch);
  }

  /** The loop of a frame ends at the segment its full batches lead to. */
  lemma LastSegment(ring: Ring, ps: seq<Attribute>)
    requires Valid(ring)
    ensures var start := Rewind(ring.size, ring.offset);
            var last := CopyAll(ring.size, ring.batch, Cursor(start, 0), ps).cursor;
            && Segment(ring.size, ring.batch, last.offset)
            && last.offset == (start + FullBatches(CountAlive(ps), ring.batch) * ring.batch) % ring.size
  {
    var start := Rewind(ring.size, ring.offset);
    RewindSegment(ring);
    IterateWraps(ring.size, ring.batch, start, FullBatches(CountAlive(ps), ring.batch));
    CopyAllCounts(ring.size, ring.batch, Cursor(start, 0), ps);
  }

  /** One step round the ring and then n - 1 more is n steps. */
  lemma StepsOn(start: nat, step: nat, n: nat, size: nat)
    requires 0 < size && 0 < n
    ensures ((start + step) % size + (n - 1) * step) % size == (start + n * step) % size
  {
    ModAddLeft(start + step, (n - 1) * step, size);
    MulSucc(n - 1, step);
  }

  /** What one frame does, gathered: it writes the alive particles' vertices in
      order, draws them in full batches and a remainder under the locking
      discipline, and on a valid ring moves the offset on as RenderAdvances
      says. */
  lemma RenderSummary(ring: Ring, ps: seq<Attribute>)
    ensures Written(Render(ring, ps).events) == Vertices(AliveOnly(ps))
    ensures 0 < ring.batch ==>
              && DrawCounts(Render(ring, ps).events) == ExpectedDraws(CountAlive(ps), ring.batch)
              && Disciplined(ring.batch, Render(ring, ps).events)
    ensures Valid(ring) && |ps| > 0 ==>
              && Valid(Render(ring, ps).ring)
              && Rewind(ring.size, Render(ring, ps).ring.offset)
                 == (Rewind(ring.size, ring.offset) + FrameStep(ring.batch, CountAlive(ps))) % ring.size
  {
    RenderWrites(ring, ps);
    if 0 < ring.batch {
      RenderDrawCounts(ring, ps);
      RenderDisciplined(ring, ps);
    }
    if Valid(ring) && |ps| > 0 {
      RenderAdvances(ring, ps);
    }
  }

  /** n frames rendered from the same list. */
  function Frames(ring: Ring, ps: seq<Attribute>, n: nat): Ring
    decreases n
  {
    if n == 0 then ring else Frames(Render(ring, ps).ring, ps, n - 1)
  }

  /** Across frames the offset walks round the ring: after n frames over a list
      with k alive particles it is n * (k / batch + 1) batches further on. */
  lemma {:induction false} FramesAdvance(ring: Ring, ps: seq<Attribute>, n: nat)
    requires Valid(ring) && |ps| > 0
    ensures Valid(Frames(ring, ps, n))
    ensures Rewind(ring.size, Frames(ring, ps, n).offset)
            == (Rewind(ring.size, ring.offset) + n * FrameStep(ring.batch, CountAlive(ps))) % ring.size
    decreases n
  {
    var step := FrameStep(ring.batch, CountAlive(ps));
    var start := Rewind(ring.size, ring.offset);
    if n == 0 {
      DivUnique(start, ring.size, 0, start);
    } else {
      var next := Render(ring, ps).ring;
      RenderAdvances(ring, ps);
      assert Rewind(ring.size, next.offset) == (start + step) % ring.size;
      FramesAdvance(next, ps, n - 1);
      StepsOn(start, step, n, ring.size);
    }
  }

  /** The number of full batches k vertices fill. */
  function FullBatches(k: nat, batch: nat): nat
    requires 0 < batch
  {
    k / batch
  }

  /** How far one frame moves the offset for k alive particles. */
  function FrameStep(batch: nat, k: nat): nat
    requires 0 < batch
  {
    (FullBatches(k, batch) + 1) * batch
  }

  /** The full batches of k alive particles span a whole number of buffers. */
  predicate WholeTurns(size: nat, batch: nat, k: nat)
    requires 0 < batch && 0 < size
  {
    (FullBatches(k, batch) * batch) % size == 0
  }

  /** n frame steps of f full batches plus one batch each land where n single
      batches land once the full batches span whole buffers. */
  lemma AlignedSteps(n: nat, f: nat, batch: nat, size: nat)
    requires 0 < size && (f * batch) % size == 0
    ensures (n * ((f + 1) * batch)) % size == (n * batch) % size
  {
    var fb := f * batch;
    var q := fb / size;
    assert fb == q * size;
    MulSucc(f, batch);
    assert n * ((f + 1) * batch) == n * (fb + batch);
    assert n * (fb + batch) == n * fb + n * batch;
    assert n * fb == n * (q * size);
    assert n * (q * size) == (n * q) * size;
    ModAddMultiple(n * batch, n * q, size);
  }

  /** Going fb and then one batch on lands one batch on exactly when fb is a
      whole number of buffers. */
  lemma OneBatchOn(fb: nat, batch: nat, size: nat)
    requires 0 < batch <= size
    ensures (fb + batch) % size == batch % size <==> fb % size == 0
  {
    var r := fb % size;
    ModAddLeft(fb, batch, size);
    if batch == size {
      ModAddMultiple(r, 1, size);
      DivUnique(r, size, 0, r);
      DivUnique(batch, size, 1, 0);
    } else if r + batch < size {
      DivUnique(r + batch, size, 0, r + batch);
      DivUnique(batch, size, 0, batch);
    } else {
      DivUnique(r + batch, size, 1, r + batch - size);
      DivUnique(batch, size, 0, batch);
    }
  }

  /** One step of f full batches plus one batch lands one batch on exactly when
      the full batches span whole buffers. */
  lemma FirstStepAligned(f: nat, batch: nat, size: nat)
    requires 0 < batch <= size
    ensures ((f + 1) * batch) % size == batch % size <==> (f * batch) % size == 0
  {
    MulSucc(f, batch);
    OneBatchOn(f * batch, batch, size);
  }

  /** When the full batches of the alive particles span a whole number of
      buffers, every frame started from offset 0 starts (n * batch) mod size
      into the buffer after n frames: the full batches bring the offset back
      where it was, and only the trailing batch moves it on. */
  lemma {:induction false} AlignedLoadFrames(size: DWord, batch: DWord, ps: seq<Attribute>, n: nat)
    requires Valid(Ring(size, 0, batch)) && |ps| > 0 && WholeTurns(size, batch, CountAlive(ps))
    ensures Rewind(size, Frames(Ring(size, 0, batch), ps, n).offset) == (n * batch) % size
  {
    FramesAdvance(Ring(size, 0, batch), ps, n);
    var f := FullBatches(CountAlive(ps), batch);
    assert Rewind(size, 0) == 0;
    assert FrameStep(batch, CountAlive(ps)) == (f + 1) * batch;
    AlignedSteps(n, f, batch, size);
  }

  /** The alignment is also necessary: the first frame's successor starts one
      batch into the buffer exactly when the full batches span whole buffers. */
  lemma {:induction false} FirstFrameAligned(size: DWord, batch: DWord, ps: seq<Attribute>)
    requires Valid(Ring(size, 0, batch)) && |ps| > 0
    ensures Rewind(size, Frames(Ring(size, 0, batch), ps, 1).offset) == batch % size
            <==> WholeTurns(size, batch, CountAlive(ps))
  {
    FramesAdvance(Ring(size, 0, batch), ps, 1);
    var f := FullBatches(CountAlive(ps), batch);
    assert Rewind(size, 0) == 0;
    assert FrameStep(batch, CountAlive(ps)) == (f + 1) * batch;
    AlignedRoom(0, size, batch);
    FirstStepAligned(f, batch, size);
  }

  /** Under a light load (fewer alive particles than a batch), starting from
      offset 0, the frame after n frames starts at (n * batch) mod size. */
  lemma {:induction false} LightLoadFrames(size: DWord, batch: DWord, ps: seq<Attribute>, n: nat)
    requires Valid(Ring(size, 0, batch)) && |ps| > 0 && CountAlive(ps) < batch
    ensures Rewind(size, Frames(Ring(size, 0, batch), ps, n).offset) == (n * batch) % size
  {
    DivUnique(CountAlive(ps), batch, 0, CountAlive(ps));
    assert FullBatches(CountAlive(ps), batch) * batch == 0 * size;
    AlignedLoadFrames(size, batch, ps, n);
  }
}

=== FILE: geometry.dfy ===
/** Vectors, colours and the axis-aligned bounding box the particle engine tests
    particles against. Coordinates are reals: float rounding is not modelled. */
module Geometry {

  /** A three-component vector (D3DXVECTOR3). */
  datatype Vec3 = Vec3(x: real, y: real, z: real)

  function Add(a: Vec3, b: Vec3): Vec3
  {
    Vec3(a.x + b.x, a.y + b.y, a.z + b.z)
  }

  function Scale(a: Vec3, k: real): Vec3
  {
    Vec3(a.x * k, a.y * k, a.z * k)
  }

  /** A colour with four float channels (D3DXCOLOR). */
  datatype Color = Color(r: real, g: real, b: real, a: real)

  /** WHITE is built from XRGB(255, 255, 255), whose alpha byte is 0xff too,
      so every channel is 1. */
  const White: Color := Color(1.0, 1.0, 1.0, 1.0)

  /** The box a particle system lives in; nothing checks that min <= max. */
  datatype BoundingBox = BoundingBox(min: Vec3, max: Vec3)

  /** The assumption the engine leaves to its caller: min <= max on every axis. */
  predicate WellFormed(box: BoundingBox)
  {
    box.min.x <= box.max.x && box.min.y <= box.max.y && box.min.z <= box.max.z
  }

  /** isPointInside: closed on both ends, on all three axes. */
  predicate IsPointInside(box: BoundingBox, p: Vec3)
  {
    p.x >= box.min.x && p.y >= box.min.y && p.z >= box.min.z &&
    p.x <= box.max.x && p.y <= box.max.y && p.z <= box.max.z
  }

  /** Clamping one coordinate into [lo, hi], written as max(lo, min(hi, v)). */
  function ClampAxis(lo: real, hi: real, v: real): real
  {
    var below := if v <= hi then v else hi;
    if below >= lo then below else lo
  }

  /** The point of a well-formed box nearest to p. */
  function Clamp(box: BoundingBox, p: Vec3): Vec3
  {
    Vec3(ClampAxis(box.min.x, box.max.x, p.x),
         ClampAxis(box.min.y, box.max.y, p.y),
         ClampAxis(box.min.z, box.max.z, p.z))
  }

  /** Containment agrees with an independent characterisation: a point is inside
      exactly when clamping it into the box leaves it where it is. */
  lemma InsideIffClampFixed(box: BoundingBox, p: Vec3)
    requires WellFormed(box)
    ensures IsPointInside(box, p) <==> Clamp(box, p) == p
  {
  }

  /** Both ends are closed: the corners themselves are inside exactly when the
      box is well formed. */
  lemma CornersInside(box: BoundingBox)
    ensures IsPointInside(box, box.min) <==> WellFormed(box)
    ensures IsPointInside(box, box.max) <==> WellFormed(box)
  {
  }
}

=== FILE: sampling.dfy ===
/** Range sampling over an injected rand() stream. The i-th call to rand() is
    modelled as src(i); a cursor `at` says how many calls have been made. */
module Sampling {
  import opened Geometry

  /** The values rand() returns, call after call (never negative). */
  type RandSource = nat -> nat

  /** rand() % 10000 gives a step in [0, 9999]; the step times 0.0001 lies in [0, 1). */
  const Resolution: nat := 10000

  /** A sampled value together with the cursor after the draws it consumed. */
  datatype Drawn<T> = Drawn(value: T, next: nat)

  /** The unit fraction one rand() value contributes. */
  function Unit(d: nat): (u: real)
    ensures 0.0 <= u < 1.0
  {
    (d % Resolution) as real / Resolution as real
  }

  /** The cursor after `groups` groups of `size` draws each. */
  function After(at: nat, groups: nat, size: nat): nat
  {
    at + groups * size
  }

  /** How many rand() calls GetRandomFloat makes for the range [lo, hi). */
  function DrawsFor(lo: real, hi: real): nat
  {
    if lo < hi then 1 else 0
  }

  /** What GetRandomFloat can return for a range: inside [lo, hi) for a proper
      range, lo itself for an empty or inverted one. */
  predicate InExtent(lo: real, hi: real, v: real)
  {
    if lo < hi then lo <= v < hi else v == lo
  }

  /** The point a fraction f of the way along a range of width w starting at lo. */
  function Interpolate(lo: real, w: real, f: real): (r: real)
    requires 0.0 <= f < 1.0 && 0.0 < w
    ensures lo <= r < lo + w
    ensures (r - lo) / w == f
  {
    assert (1.0 - f) * w > 0.0;
    f * w + lo
  }

  /** GetRandomFloat: an inverted or empty range returns the low bound without
      calling rand(); otherwise the next draw d picks the point (d % 10000) / 10000
      of the way from lo to hi, so the draw can be read back from the result. */
  function GetRandomFloat(src: RandSource, at: nat, lo: real, hi: real): (r: Drawn<real>)
    ensures lo >= hi ==> r == Drawn(lo, at)
    ensures lo < hi ==> lo <= r.value < hi && r.next == at + 1
    ensures lo < hi ==> (r.value - lo) / (hi - lo) == Unit(src(at))
    ensures InExtent(lo, hi, r.value) && r.next == at + DrawsFor(lo, hi)
  {
    if lo >= hi then Drawn(lo, at)
    else Drawn(Interpolate(lo, hi - lo, Unit(src(at))), at + 1)
  }

  /** How many rand() calls GetRandomVector makes for the box [min, max]. */
  function VectorDraws(min: Vec3, max: Vec3): nat
  {
    DrawsFor(min.x, max.x) + DrawsFor(min.y, max.y) + DrawsFor(min.z, max.z)
  }

  /** GetRandomVector: x, y and z are sampled in that order, each from its own axis. */
  function GetRandomVector(src: RandSource, at: nat, min: Vec3, max: Vec3): (r: Drawn<Vec3>)
    ensures InExtent(min.x, max.x, r.value.x)
    ensures InExtent(min.y, max.y, r.value.y)
    ensures InExtent(min.z, max.z, r.value.z)
    ensures r.next == at + VectorDraws(min, max)
  {
    var x := GetRandomFloat(src, at, min.x, max.x);
    var y := GetRandomFloat(src, x.next, min.y, max.y);
    var z := GetRandomFloat(src, y.next, min.z, max.z);
    Drawn(Vec3(x.value, y.value, z.value), z.next)
  }

  /** The axes consume the stream in order: x takes the first draws, y the ones
      after x's, z the ones after y's. */
  lemma GetRandomVectorOrder(src: RandSource, at: nat, min: Vec3, max: Vec3)
    ensures var r := GetRandomVector(src, at, min, max);
            var atY := at + DrawsFor(min.x, max.x);
            var atZ := atY + DrawsFor(min.y, max.y);
            && r.value.x == GetRandomFloat(src, at, min.x, max.x).value
            && r.value.y == GetRandomFloat(src, atY, min.y, max.y).value
            && r.value.z == GetRandomFloat(src, atZ, min.z, max.z).value
  {
  }
}

=== FILE: scenario.dfy ===
/** The configuration the game sets up: a snow system of 5000 flakes in the box
    from (-10, -10, -10) to (10, 10, 10), rendered through a 2048-vertex buffer
    in batches of 512, and what the general lemmas say about it. */
module Scenario {
  import opened Geometry
  import opened Sampling
  import opened Store
  import SnowVariant
  import Batching
  import opened ParticleSystems

  const GameBox: BoundingBox := BoundingBox(Vec3(-10.0, -10.0, -10.0), Vec3(10.0, 10.0, 10.0))

  /** The game's snow system: 5000 flakes, all at the top of the box with x and
      z in [-10, 10), after exactly five rand() calls per flake. */
  lemma {:induction false} GameSnowSpawn(src: RandSource, at: nat)
    ensures var r := NewSnow(GameBox, 5000, src, at);
            && |r.value.particles| == 5000
            && (forall i :: 0 <= i < 5000 ==>
                  var p := r.value.particles[i].position;
                  p.y == 10.0 && -10.0 <= p.x < 10.0 && -10.0 <= p.z < 10.0)
            && r.next == at + 25000
  {
    var r := NewSnow(GameBox, 5000, src, at);
    assert SnowVariant.SpawnDraws(GameBox) == 5;
    forall i | 0 <= i < 5000
      ensures var p := r.value.particles[i].position;
              p.y == 10.0 && -10.0 <= p.x < 10.0 && -10.0 <= p.z < 10.0
    {
      assert SnowVariant.Spawned(GameBox, r.value.particles[i]);
    }
  }

  /** One game frame of update on a steady system: a flake that left the box
      restarted at height 10, and every other flake fell (its height did not
      grow). */
  lemma {:induction false} GameUpdateFalls(s: System, dt: real, src: RandSource, at: nat)
    requires SnowSteady(s) && s.box == GameBox && 0.0 <= dt
    ensures var after := Update(s, dt, src, at).value.particles;
            forall i :: 0 <= i < |s.particles| ==>
              if SnowVariant.Escapes(GameBox, s.particles[i], dt) then after[i].position.y == 10.0
              else after[i].position.y <= s.particles[i].position.y
  {
    var after := Update(s, dt, src, at).value.particles;
    forall i | 0 <= i < |s.particles|
      ensures if SnowVariant.Escapes(GameBox, s.particles[i], dt) then after[i].position.y == 10.0
              else after[i].position.y <= s.particles[i].position.y
    {
      SnowVariant.UpdateFalls(s.box, s.particles, dt, src, at, i);
    }
  }

  /** With 1300 alive flakes and batches of 512, one frame draws 512, 512 and
      then the remaining 276 vertices. */
  lemma {:induction false} Draws1300(ring: Batching.Ring, ps: seq<Attribute>)
    requires ring.batch == 512 && CountAlive(ps) == 1300
    ensures Batching.DrawCounts(Batching.Render(ring, ps).events) == [512, 512, 276]
  {
    Batching.RenderDrawCounts(ring, ps);
    Batching.DivUnique(1300, 512, 2, 276);
    assert Batching.Repeat(512, 2) == [512, 512];
  }

  /** A range given upside down yields its low bound and leaves rand() alone. */
  lemma InvertedRange(src: RandSource, at: nat)
    ensures GetRandomFloat(src, at, 5.0, 2.0) == Drawn(5.0, at)
  {
  }

  /** One frame with a single alive flake from a segment start below the end:
      the flake goes into a batch of one, and the offset moves one batch on. */
  lemma SingleFlakeFrame(o: Batching.DWord)
    requires o < 2048
    ensures Batching.Render(Batching.Ring(2048, o, 512), [Fresh]).ring == Batching.Ring(2048, o + 512, 512)
  {
    var ps := [Fresh];
    assert ps[1..] == [];
    var first := Batching.Copy(2048, 512, Batching.Cursor(o, 0), Fresh);
    assert first.cursor == Batching.Cursor(o, 1);
    assert Batching.CopyAll(2048, 512, Batching.Cursor(o, 0), ps).cursor == Batching.Cursor(o, 1);
  }

  /** The stored offset can equal the buffer size between frames: with a single
      alive flake, four frames starting at offset 0 leave it at 2048, which the
      next frame rewinds to 0. */
  lemma {:induction false} OffsetReachesSize()
    ensures var ps := [Fresh];
            Batching.Frames(Batching.Ring(2048, 0, 512), ps, 4) == Batching.Ring(2048, 2048, 512)
  {
    var ps := [Fresh];
    SingleFlakeFrame(0);
    SingleFlakeFrame(512);
    SingleFlakeFrame(1024);
    SingleFlakeFrame(1536);
    var r4 := Batching.Ring(2048, 2048, 512);
    assert Batching.Frames(r4, ps, 0) == r4;
    assert Batching.Frames(Batching.Ring(2048, 1536, 512), ps, 1) == r4;
    assert Batching.Frames(Batching.Ring(2048, 1024, 512), ps, 2) == r4;
    assert Batching.Frames(Batching.Ring(2048, 512, 512), ps, 3) == r4;
  }

  /** With the buffer's worth of 2048 alive flakes, the four full batches go
      once round the buffer, so frame after frame starts 512 vertices further
      on, as under a light load. */
  lemma {:induction false} FullBufferFrames(ps: seq<Attribute>, n: nat)
    requires CountAlive(ps) == 2048
    ensures Batching.Rewind(2048, Batching.Frames(Batching.Ring(2048, 0, 512), ps, n).offset) == (n * 512) % 2048
  {
    Batching.DivUnique(2048, 512, 4, 0);
    Batching.DivUnique(4 * 512, 2048, 1, 0);
    Batching.AlignedLoadFrames(2048, 512, ps, n);
  }

  /** With 1300 alive flakes the two full batches cover half the buffer, so
      the second frame does not start at vertex 512. */
  lemma {:induction false} Load1300Frames(ps: seq<Attribute>)
    requires CountAlive(ps) == 1300
    ensures Batching.Rewind(2048, Batching.Frames(Batching.Ring(2048, 0, 512), ps, 1).offset) != 512
  {
    Batching.DivUnique(1300, 512, 2, 276);
    Batching.DivUnique(2 * 512, 2048, 0, 1024);
    Batching.DivUnique(512, 2048, 0, 512);
    Batching.FirstFrameAligned(2048, 512, ps);
  }

  /** The discipline accepts two vertices written to consecutive slots from
      the segment start and then drawn together. */
  lemma {:induction false} ConsecutiveSlotsDrawn(v: Vertex)
    ensures Batching.Disciplined(512, [Batching.Pre, Batching.Lock(0, Batching.Discard),
              Batching.Write(0, v), Batching.Write(1, v), Batching.Unlock, Batching.Draw(0, 2), Batching.Post])
  {
    var l := Batching.Lock(0, Batching.Discard);
    var w0 := Batching.Write(0, v);
    var w1 := Batching.Write(1, v);
    var d := Batching.Draw(0, 2);
    var tail := [Batching.Unlock, d, Batching.Post];
    Batching.RunOne(512, Batching.Released(0, 0), Batching.Post);
    Batching.RunCons(512, Batching.Released(0, 2), d, [Batching.Post]);
    Batching.RunCons(512, Batching.Locked(0, 2), Batching.Unlock, [d, Batching.Post]);
    assert [Batching.Unlock] + [d, Batching.Post] == tail;
    Batching.RunCons(512, Batching.Locked(0, 1), w1, tail);
    Batching.RunCons(512, Batching.Locked(0, 0), w0, [w1] + tail);
    Batching.RunCons(512, Batching.Idle, l, [w0] + ([w1] + tail));
    Batching.RunCons(512, Batching.Idle, Batching.Pre, [l] + ([w0] + ([w1] + tail)));
    assert [Batching.Pre] + ([l] + ([w0] + ([w1] + tail)))
           == [Batching.Pre, l, w0, w1, Batching.Unlock, d, Batching.Post];
  }

  /** The same frame with the second vertex written over the first is rejected. */
  lemma {:induction false} OverwriteRejected(v: Vertex)
    ensures !Batching.Disciplined(512, [Batching.Pre, Batching.Lock(0, Batching.Discard),
              Batching.Write(0, v), Batching.Write(0, v), Batching.Unlock, Batching.Draw(0, 2), Batching.Post])
  {
    var l := Batching.Lock(0, Batching.Discard);
    var w0 := Batching.Write(0, v);
    var tail := [Batching.Unlock, Batching.Draw(0, 2), Batching.Post];
    Batching.FaultStays(512, tail);
    Batching.RunCons(512, Batching.Locked(0, 1), w0, tail);
    Batching.RunCons(512, Batching.Locked(0, 0), w0, [w0] + tail);
    Batching.RunCons(512, Batching.Idle, l, [w0] + ([w0] + tail));
    Batching.RunCons(512, Batching.Idle, Batching.Pre, [l] + ([w0] + ([w0] + tail)));
    assert [Batching.Pre] + ([l] + ([w0] + ([w0] + tail)))
           == [Batching.Pre, l, w0, w0, Batching.Unlock, Batching.Draw(0, 2), Batching.Post];
  }

  /** A draw covering more vertices than were written is rejected. */
  lemma {:induction false} OverdrawRejected(v: Vertex)
    ensures !Batching.Disciplined(512, [Batching.Pre, Batching.Lock(0, Batching.Discard),
              Batching.Write(0, v), Batching.Unlock, Batching.Draw(0, 2), Batching.Post])
  {
    var l := Batching.Lock(0, Batching.Discard);
    var w0 := Batching.Write(0, v);
    var d := Batching.Draw(0, 2);
    var tail := [Batching.Unlock, d, Batching.Post];
    Batching.FaultStays(512, [Batching.Post]);
    assert Batching.Apply(512, Batching.Released(0, 1), d) == Batching.Fault;
    Batching.RunCons(512, Batching.Released(0, 1), d, [Batching.Post]);
    Batching.RunCons(512, Batching.Locked(0, 1), Batching.Unlock, [d, Batching.Post]);
    assert [Batching.Unlock] + [d, Batching.Post] == tail;
    Batching.RunCons(512, Batching.Locked(0, 0), w0, tail);
    Batching.RunCons(512, Batching.Idle, l, [w0] + tail);
    Batching.RunCons(512, Batching.Idle, Batching.Pre, [l] + ([w0] + tail));
    assert [Batching.Pre] + ([l] + ([w0] + tail))
           == [Batching.Pre, l, w0, Batching.Unlock, d, Batching.Post];
  }
}

=== FILE: snow.dfy ===
/** The falling-snow variant: its spawn rule (resetParticle) and its per-frame
    motion with recycling of particles that leave the box (update). */
module SnowVariant {
  import opened Geometry
  import opened Sampling
  import opened Store

  /** rand() calls one respawn makes: three for the random position (the y draw
      is made and then overwritten) and two for the velocity. */
  function SpawnDraws(box: BoundingBox): nat
  {
    VectorDraws(box.min, box.max) + 2
  }

  /** The horizontal velocity is a unit sample times -3, the vertical one a unit
      sample times -10, and nothing moves along z. */
  predicate SnowVelocity(v: Vec3)
  {
    -3.0 < v.x <= 0.0 && -10.0 < v.y <= 0.0 && v.z == 0.0
  }

  /** What a respawned snow flake looks like: alive, white, at the top of the box,
      x and z sampled from the box's extents, falling with a snow velocity. */
  predicate Spawned(box: BoundingBox, a: Attribute)
  {
    && a.isAlive
    && a.position.y == box.max.y
    && InExtent(box.min.x, box.max.x, a.position.x)
    && InExtent(box.min.z, box.max.z, a.position.z)
    && SnowVelocity(a.velocity)
    && a.color == White
  }

  /** The fields the spawn rule never writes. */
  predicate Untouched(before: Attribute, after: Attribute)
  {
    && after.acceleration == before.acceleration
    && after.lifeTime == before.lifeTime
    && after.age == before.age
    && after.colorFade == before.colorFade
  }

  /** Snow::resetParticle. */
  function ResetParticle(box: BoundingBox, a: Attribute, src: RandSource, at: nat): (r: Drawn<Attribute>)
    ensures Spawned(box, r.value)
    ensures Untouched(a, r.value)
    ensures r.next == at + SpawnDraws(box)
  {
    var p := GetRandomVector(src, at, box.min, box.max);
    var vx := GetRandomFloat(src, p.next, 0.0, 1.0);
    var vy := GetRandomFloat(src, vx.next, 0.0, 1.0);
    var position := p.value.(y := box.max.y);
    var velocity := Vec3(vx.value * -3.0, vy.value * -10.0, 0.0);
    Drawn(a.(isAlive := true, position := position, velocity := velocity, color := White), vy.next)
  }

  /** The position is the one GetRandomVector draws from the box, with y then
      set to the top of the box: x from the first draw, z from the draws after
      x's and the discarded y's. */
  lemma ResetParticlePosition(box: BoundingBox, a: Attribute, src: RandSource, at: nat)
    ensures var p := ResetParticle(box, a, src, at).value.position;
            var atZ := at + DrawsFor(box.min.x, box.max.x) + DrawsFor(box.min.y, box.max.y);
            && p.x == GetRandomFloat(src, at, box.min.x, box.max.x).value
            && p.y == box.max.y
            && p.z == GetRandomFloat(src, atZ, box.min.z, box.max.z).value
  {
    GetRandomVectorOrder(src, at, box.min, box.max);
  }

  /** The velocity is read off the two draws that follow the position's: the
      first scaled by -3 for x, the second by -10 for y. */
  lemma ResetParticleVelocity(box: BoundingBox, a: Attribute, src: RandSource, at: nat)
    ensures var v := ResetParticle(box, a, src, at).value.velocity;
            var k := at + VectorDraws(box.min, box.max);
            v.x == Unit(src(k)) * -3.0 && v.y == Unit(src(k + 1)) * -10.0
  {
    var k := at + VectorDraws(box.min, box.max);
    var vx := GetRandomFloat(src, k, 0.0, 1.0);
    var vy := GetRandomFloat(src, k + 1, 0.0, 1.0);
    assert vx.value == (vx.value - 0.0) / (1.0 - 0.0) == Unit(src(k));
    assert vy.value == (vy.value - 0.0) / (1.0 - 0.0) == Unit(src(k + 1));
  }

  /** A particle's position after one step of dt: position + velocity * dt. */
  function Moved(a: Attribute, dt: real): Vec3
  {
    Add(a.position, Scale(a.velocity, dt))
  }

  predicate Escapes(box: BoundingBox, a: Attribute, dt: real)
  {
    !IsPointInside(box, Moved(a, dt))
  }

  /** Number of particles a step of dt carries out of the box. */
  function CountEscapes(box: BoundingBox, ps: seq<Attribute>, dt: real): nat
  {
    if |ps| == 0 then 0
    else (if Escapes(box, ps[0], dt) then 1 else 0) + CountEscapes(box, ps[1..], dt)
  }

  /** The body of Snow::update for one particle: move it, and respawn it if it
      left the box. */
  function Step(box: BoundingBox, a: Attribute, dt: real, src: RandSource, at: nat): (r: Drawn<Attribute>)
    ensures !Escapes(box, a, dt) ==> r == Drawn(a.(position := Moved(a, dt)), at)
    ensures Escapes(box, a, dt) ==>
              Spawned(box, r.value) && Untouched(a, r.value) && r.next == at + SpawnDraws(box)
  {
    var moved := a.(position := Moved(a, dt));
    if IsPointInside(box, moved.position) then Drawn(moved, at) else ResetParticle(box, moved, src, at)
  }

  /** How one particle relates to itself one update later. */
  predicate Stepped(box: BoundingBox, dt: real, before: Attribute, after: Attribute)
  {
    && (!Escapes(box, before, dt) ==> after == before.(position := Moved(before, dt)))
    && (Escapes(box, before, dt) ==> Spawned(box, after) && Untouched(before, after))
  }

  /** Snow::update: every particle, in list order, moves by velocity * dt; those
      that leave the box are respawned, each consuming the next respawn's draws. */
  function Update(box: BoundingBox, ps: seq<Attribute>, dt: real, src: RandSource, at: nat): (r: Drawn<seq<Attribute>>)
    ensures |r.value| == |ps|
    ensures forall i :: 0 <= i < |ps| ==> Stepped(box, dt, ps[i], r.value[i])
    ensures r.next == After(at, CountEscapes(box, ps, dt), SpawnDraws(box))
    decreases |ps|
  {
    if |ps| == 0 then Drawn([], at)
    else
      var first := Step(box, ps[0], dt, src, at);
      var rest := Update(box, ps[1..], dt, src, first.next);
      var all := [first.value] + rest.value;
      assert forall i :: 1 <= i < |ps| ==> ps[i] == ps[1..][i - 1] && all[i] == rest.value[i - 1];
      var e := if Escapes(box, ps[0], dt) then 1 else 0;
      assert first.next == After(at, e, SpawnDraws(box));
      EscapeCursor(at, e, CountEscapes(box, ps[1..], dt), SpawnDraws(box));
      Drawn(all, rest.next)
  }

  /** The escapes among the first i particles: the first particle's, then the
      rest's among the next i - 1. */
  lemma CountEscapesPrefix(box: BoundingBox, ps: seq<Attribute>, dt: real, i: nat)
    requires 1 <= i <= |ps|
    ensures CountEscapes(box, ps[..i], dt)
            == (if Escapes(box, ps[0], dt) then 1 else 0) + CountEscapes(box, ps[1..][..i - 1], dt)
  {
    assert ps[..i][0] == ps[0];
    assert ps[..i][1..] == ps[1..][..i - 1];
  }

  /** The cursor after e respawns and then n more is the cursor after e + n. */
  lemma EscapeCursor(at: nat, e: nat, n: nat, d: nat)
    ensures After(After(at, e, d), n, d) == After(at, e + n, d)
  {
    assert (e + n) * d == e * d + n * d;
  }

  /** Particle i is stepped with the draws that follow the respawns of the
      escaping particles before it. */
  lemma {:induction false} UpdateAt(box: BoundingBox, ps: seq<Attribute>, dt: real, src: RandSource, at: nat, i: nat)
    requires i < |ps|
    ensures Update(box, ps, dt, src, at).value[i]
            == Step(box, ps[i], dt, src, After(at, CountEscapes(box, ps[..i], dt), SpawnDraws(box))).value
    decreases i
  {
    var d := SpawnDraws(box);
    var first := Step(box, ps[0], dt, src, at);
    var rest := Update(box, ps[1..], dt, src, first.next).value;
    assert Update(box, ps, dt, src, at).value == [first.value] + rest;
    if i == 0 {
      assert ps[..0] == [];
      assert After(at, CountEscapes(box, ps[..0], dt), d) == at;
    } else {
      var e := if Escapes(box, ps[0], dt) then 1 else 0;
      var n := CountEscapes(box, ps[1..][..i - 1], dt);
      assert first.next == After(at, e, d);
      UpdateAt(box, ps[1..], dt, src, first.next, i - 1);
      assert ps[1..][i - 1] == ps[i];
      CountEscapesPrefix(box, ps, dt, i);
      EscapeCursor(at, e, n, d);
    }
  }

  /** update walks the list in order: particle i is stepped with the draws that
      follow the respawns of the escaping particles before it. */
  lemma UpdateInOrder(box: BoundingBox, ps: seq<Attribute>, dt: real, src: RandSource, at: nat)
    ensures var r := Update(box, ps, dt, src, at).value;
            forall i :: 0 <= i < |ps| ==>
              r[i] == Step(box, ps[i], dt, src, After(at, CountEscapes(box, ps[..i], dt), SpawnDraws(box))).value
  {
    forall i | 0 <= i < |ps|
      ensures Update(box, ps, dt, src, at).value[i]
              == Step(box, ps[i], dt, src, After(at, CountEscapes(box, ps[..i], dt), SpawnDraws(box))).value
    {
      UpdateAt(box, ps, dt, src, at, i);
    }
  }

  /** update never kills a particle: afterwards a particle is alive exactly when
      it was alive before or it left the box and was respawned. */
  lemma UpdateKeepsAlive(box: BoundingBox, ps: seq<Attribute>, dt: real, src: RandSource, at: nat)
    ensures var r := Update(box, ps, dt, src, at).value;
            forall i :: 0 <= i < |ps| ==> (r[i].isAlive <==> ps[i].isAlive || Escapes(box, ps[i], dt))
  {
    var r := Update(box, ps, dt, src, at).value;
    forall i | 0 <= i < |ps|
      ensures r[i].isAlive <==> ps[i].isAlive || Escapes(box, ps[i], dt)
    {
      assert Stepped(box, dt, ps[i], r[i]);
    }
  }

  /** The steady-state invariant of a snow store in a well-formed box: every
      particle alive, white, inside the box and falling with a snow velocity. */
  predicate Settled(box: BoundingBox, a: Attribute)
  {
    a.isAlive && a.color == White && SnowVelocity(a.velocity) && IsPointInside(box, a.position)
  }

  /** A freshly spawned flake starts inside a well-formed box. */
  lemma SpawnedIsSettled(box: BoundingBox, a: Attribute)
    requires WellFormed(box)
    requires Spawned(box, a)
    ensures Settled(box, a)
  {
  }

  /** update keeps every particle settled: particles are recycled, never killed,
      and none is left outside the box. */
  lemma UpdatePreservesSettled(box: BoundingBox, ps: seq<Attribute>, dt: real, src: RandSource, at: nat)
    requires WellFormed(box)
    requires forall i :: 0 <= i < |ps| ==> Settled(box, ps[i])
    ensures forall i :: 0 <= i < |ps| ==> Settled(box, Update(box, ps, dt, src, at).value[i])
  {
    var r := Update(box, ps, dt, src, at).value;
    forall i | 0 <= i < |ps|
      ensures Settled(box, r[i])
    {
      if Escapes(box, ps[i], dt) {
        SpawnedIsSettled(box, r[i]);
      }
    }
  }

  lemma NonPositiveTimesNonNegative(a: real, b: real)
    requires a <= 0.0 && 0.0 <= b
    ensures a * b <= 0.0
  {
    assert (-a) * b >= 0.0;
  }

  /** A settled flake never rises: after update its height is either lower or
      equal (it stayed in the box) or the top of the box (it was recycled). */
  lemma UpdateFalls(box: BoundingBox, ps: seq<Attribute>, dt: real, src: RandSource, at: nat, i: nat)
    requires 0.0 <= dt
    requires i < |ps| && Settled(box, ps[i])
    ensures var a := Update(box, ps, dt, src, at).value[i];
            if Escapes(box, ps[i], dt) then a.position.y == box.max.y
            else a.position.y <= ps[i].position.y
  {
    SteppedFalls(box, dt, ps[i], Update(box, ps, dt, src, at).value[i]);
  }

  /** One settled flake one step later: at the top of the box if it escaped, no
      higher than before otherwise. */
  lemma SteppedFalls(box: BoundingBox, dt: real, before: Attribute, after: Attribute)
    requires 0.0 <= dt && Settled(box, before) && Stepped(box, dt, before, after)
    ensures if Escapes(box, before, dt) then after.position.y == box.max.y
            else after.position.y <= before.position.y
  {
    if !Escapes(box, before, dt) {
      var v := before.velocity.y;
      assert after.position.y == before.position.y + v * dt;
      NonPositiveTimesNonNegative(v, dt);
    }
  }
}

=== FILE: store.dfy ===
/** The particle attribute store: the per-particle record, the vertex it is
    rendered as, and the list queries and compaction of the base system. */
module Store {
  import opened Geometry

  /** One particle's full state (ParticleSystem::Attribute). */
  datatype Attribute = Attribute(
    position: Vec3,
    velocity: Vec3,
    acceleration: Vec3,
    lifeTime: real,
    age: real,
    color: Color,
    colorFade: Color,
    isAlive: bool)

  const Zero: Vec3 := Vec3(0.0, 0.0, 0.0)
  const Black: Color := Color(0.0, 0.0, 0.0, 0.0)

  /** A default-constructed Attribute: alive, with age and lifetime zero. The
      vector and colour fields, which the constructor leaves uninitialised, are
      modelled as zero. */
  const Fresh: Attribute := Attribute(Zero, Zero, Zero, 0.0, 0.0, Black, Black, true)

  /** The vertex written to the buffer (ParticleSystem::Particle): position and colour only. */
  datatype Vertex = Vertex(position: Vec3, color: Color)

  function ToVertex(a: Attribute): Vertex
  {
    Vertex(a.position, a.color)
  }

  /** The vertices of a list of particles, in order. */
  function Vertices(ps: seq<Attribute>): seq<Vertex>
  {
    seq(|ps|, i requires 0 <= i < |ps| => ToVertex(ps[i]))
  }

  lemma VerticesAppend(a: seq<Attribute>, b: seq<Attribute>)
    ensures Vertices(a + b) == Vertices(a) + Vertices(b)
  {
  }

  /** Number of alive particles. */
  function CountAlive(ps: seq<Attribute>): (n: nat)
    ensures n <= |ps|
  {
    if |ps| == 0 then 0 else (if ps[0].isAlive then 1 else 0) + CountAlive(ps[1..])
  }

  /** Reference definition of compaction: the alive particles, in list order. */
  function AliveOnly(ps: seq<Attribute>): seq<Attribute>
  {
    if |ps| == 0 then [] else (if ps[0].isAlive then [ps[0]] else []) + AliveOnly(ps[1..])
  }

  /** The positions of the alive particles, in increasing order. */
  function AliveIndices(ps: seq<Attribute>): seq<nat>
  {
    if |ps| == 0 then []
    else (if ps[0].isAlive then [0] else []) + Shift(AliveIndices(ps[1..]))
  }

  function Shift(s: seq<nat>): seq<nat>
  {
    seq(|s|, j requires 0 <= j < |s| => s[j] + 1)
  }

  predicate StrictlyIncreasing(s: seq<nat>)
  {
    forall i, j :: 0 <= i < j < |s| ==> s[i] < s[j]
  }

  /** isEmpty. */
  function IsEmpty(ps: seq<Attribute>): (r: bool)
    ensures r <==> ps == []
  {
    |ps| == 0
  }

  /** isDead: scans the list and stops at the first alive particle. */
  function IsDead(ps: seq<Attribute>): (r: bool)
    ensures r <==> forall i :: 0 <= i < |ps| ==> !ps[i].isAlive
    ensures r <==> CountAlive(ps) == 0
  {
    if |ps| == 0 then true
    else if ps[0].isAlive then false
    else
      var rest := IsDead(ps[1..]);
      assert forall i :: 1 <= i < |ps| ==> ps[i] == ps[1..][i - 1];
      rest
  }

  /** Compaction distributes over concatenation. */
  lemma {:induction false} AliveOnlyAppend(a: seq<Attribute>, b: seq<Attribute>)
    ensures AliveOnly(a + b) == AliveOnly(a) + AliveOnly(b)
    decreases |a|
  {
    if |a| == 0 {
      assert a + b == b;
    } else {
      var head := if a[0].isAlive then [a[0]] else [];
      assert (a + b)[0] == a[0] && (a + b)[1..] == a[1..] + b;
      assert AliveOnly(a + b) == head + AliveOnly(a[1..] + b);
      assert AliveOnly(a) == head + AliveOnly(a[1..]);
      AliveOnlyAppend(a[1..], b);
      assert head + (AliveOnly(a[1..]) + AliveOnly(b)) == (head + AliveOnly(a[1..])) + AliveOnly(b);
    }
  }

  /** The compacted list has one element per alive particle, all of them alive. */
  lemma {:induction false} AliveOnlyContents(ps: seq<Attribute>)
    ensures |AliveOnly(ps)| == CountAlive(ps)
    ensures forall j :: 0 <= j < |AliveOnly(ps)| ==> AliveOnly(ps)[j].isAlive
    ensures forall a :: a in ps && a.isAlive ==> a in AliveOnly(ps)
    ensures forall a :: a in AliveOnly(ps) ==> a in ps
    decreases |ps|
  {
    if |ps| > 0 {
      AliveOnlyContents(ps[1..]);
      assert ps == [ps[0]] + ps[1..];
    }
  }

  /** One step of the recursive definitions, for a non-empty list. */
  lemma AliveUnfold(ps: seq<Attribute>)
    requires |ps| > 0
    ensures AliveIndices(ps) == (if ps[0].isAlive then [0] else []) + Shift(AliveIndices(ps[1..]))
    ensures AliveOnly(ps) == (if ps[0].isAlive then [ps[0]] else []) + AliveOnly(ps[1..])
  {
  }

  lemma ShiftIncreasing(s: seq<nat>)
    requires StrictlyIncreasing(s)
    ensures StrictlyIncreasing(Shift(s))
    ensures forall j :: 0 <= j < |s| ==> Shift(s)[j] > 0
  {
  }

  lemma PrependZero(s: seq<nat>)
    requires StrictlyIncreasing(s)
    requires forall j :: 0 <= j < |s| ==> s[j] > 0
    ensures StrictlyIncreasing([0] + s)
  {
    var t := [0] + s;
    forall i, j | 0 <= i < j < |t|
      ensures t[i] < t[j]
    {
      assert t[j] == s[j - 1];
      if i > 0 {
        assert t[i] == s[i - 1];
      }
    }
  }

  /** Every alive index is a position of the list, listed in increasing order,
      one per survivor of compaction. */
  lemma {:induction false} AliveIndicesOrdered(ps: seq<Attribute>)
    ensures |AliveIndices(ps)| == |AliveOnly(ps)|
    ensures forall j :: 0 <= j < |AliveIndices(ps)| ==> AliveIndices(ps)[j] < |ps|
    ensures StrictlyIncreasing(AliveIndices(ps))
    decreases |ps|
  {
    if |ps| > 0 {
      var tail := ps[1..];
      AliveIndicesOrdered(tail);
      AliveUnfold(ps);
      var shifted := Shift(AliveIndices(tail));
      ShiftIncreasing(AliveIndices(tail));
      if ps[0].isAlive {
        PrependZero(shifted);
      }
      var all := AliveIndices(ps);
      var head := if ps[0].isAlive then 1 else 0;
      forall j | 0 <= j < |all|
        ensures all[j] < |ps|
      {
        if j >= head {
          assert all[j] == shifted[j - head];
        }
      }
    }
  }

  /** The j-th survivor of compaction is the particle at the j-th alive index. */
  lemma {:induction false} AliveIndicesPick(ps: seq<Attribute>)
    ensures |AliveIndices(ps)| == |AliveOnly(ps)|
    ensures forall j :: 0 <= j < |AliveIndices(ps)| ==>
              AliveIndices(ps)[j] < |ps| && AliveOnly(ps)[j] == ps[AliveIndices(ps)[j]]
    decreases |ps|
  {
    if |ps| > 0 {
      var tail := ps[1..];
      AliveIndicesPick(tail);
      AliveUnfold(ps);
      var t := AliveIndices(tail);
      var shifted := Shift(t);
      var head := if ps[0].isAlive then 1 else 0;
      var indices := AliveIndices(ps);
      var kept := AliveOnly(ps);
      assert |indices| == head + |t|;
      assert |kept| == head + |AliveOnly(tail)|;
      forall j | 0 <= j < |indices|
        ensures indices[j] < |ps| && kept[j] == ps[indices[j]]
      {
        if j < head {
          assert indices[j] == 0 && kept[j] == ps[0];
        } else {
          var k := j - head;
          assert indices[j] == shifted[k] == t[k] + 1;
          assert kept[j] == AliveOnly(tail)[k] == tail[t[k]];
        }
      }
    }
  }

  lemma ShiftMember(t: seq<nat>, x: nat)
    ensures x in t <==> x + 1 in Shift(t)
  {
    if x in t {
      var j :| 0 <= j < |t| && t[j] == x;
      assert Shift(t)[j] == x + 1;
    }
    if x + 1 in Shift(t) {
      var j :| 0 <= j < |t| && Shift(t)[j] == x + 1;
      assert t[j] == x;
    }
  }

  /** A position is listed among the alive indices exactly when its particle is alive. */
  lemma {:induction false} AliveIndicesExact(ps: seq<Attribute>)
    ensures forall i :: 0 <= i < |ps| ==> (ps[i].isAlive <==> i in AliveIndices(ps))
    decreases |ps|
  {
    if |ps| > 0 {
      var tail := ps[1..];
      AliveIndicesExact(tail);
      AliveIndicesOrdered(tail);
      AliveUnfold(ps);
      var t := AliveIndices(tail);
      ShiftIncreasing(t);
      var shifted := Shift(t);
      var all := AliveIndices(ps);
      assert 0 !in shifted;
      forall i | 0 <= i < |ps|
        ensures ps[i].isAlive <==> i in all
      {
        if i > 0 {
          assert ps[i] == tail[i - 1];
          ShiftMember(t, i - 1);
          assert i in all <==> i in shifted;
        }
      }
    }
  }

  /** Compaction is a stable filter: the survivors are exactly the particles at
      the alive positions of the input, read in increasing order. */
  lemma AliveOnlyStable(ps: seq<Attribute>)
    ensures |AliveIndices(ps)| == |AliveOnly(ps)|
    ensures StrictlyIncreasing(AliveIndices(ps))
    ensures forall j :: 0 <= j < |AliveIndices(ps)| ==>
              AliveIndices(ps)[j] < |ps| && AliveOnly(ps)[j] == ps[AliveIndices(ps)[j]]
    ensures forall i :: 0 <= i < |ps| ==> (ps[i].isAlive <==> i in AliveIndices(ps))
  {
    AliveIndicesOrdered(ps);
    AliveIndicesPick(ps);
    AliveIndicesExact(ps);
  }

  /** removeDeadParticles: walks the list, erasing each dead particle in place
      and stepping past each alive one. */
  method RemoveDeadParticles(ps: seq<Attribute>) returns (r: seq<Attribute>)
    ensures r == AliveOnly(ps)
    ensures |r| == CountAlive(ps)
    ensures forall j :: 0 <= j < |r| ==> r[j].isAlive
  {
    r := ps;
    var i := 0;
    ghost var j := 0;
    while i < |r|
      invariant 0 <= i <= |r| && 0 <= j <= |ps|
      invariant r[..i] == AliveOnly(ps[..j])
      invariant r[i..] == ps[j..]
      decreases |r| - i
    {
      assert ps[..j + 1] == ps[..j] + [ps[j]];
      AliveOnlyAppend(ps[..j], [ps[j]]);
      assert r[i] == ps[j];
      assert r[i + 1..] == ps[j + 1..];
      if !r[i].isAlive {
        assert AliveOnly([ps[j]]) == [];
        r := r[..i] + r[i + 1..];
        assert r[..i] == AliveOnly(ps[..j + 1]);
      } else {
        assert AliveOnly([ps[j]]) == [ps[j]];
        assert r[..i + 1] == r[..i] + [ps[j]];
        i := i + 1;
      }
      j := j + 1;
    }
    assert |ps[j..]| == 0;
    assert ps[..j] == ps;
    assert r == r[..i];
    AliveOnlyContents(ps);
  }
}

=== FILE: system.dfy ===
/** The particle system as a whole: the state it keeps, the variant-specific
    spawn and update rules dispatched on the variant, construction of the snow
    system, addParticle, reset, and the frame operations update and render. */
module ParticleSystems {
  import opened Geometry
  import opened Sampling
  import opened Store
  import SnowVariant
  import Batching

  /** The effect a system implements; each supplies resetParticle and update. */
  datatype Variant = Snow

  /** A particle system: its variant, its box, its point size, its particles
      and its vertex-buffer ring. */
  datatype System = System(
    variant: Variant,
    box: BoundingBox,
    pointSize: real,
    particles: seq<Attribute>,
    ring: Batching.Ring)

  /** The vertex-buffer capacity and batch size the snow system chooses. */
  const SnowBufferSize: Batching.DWord := 2048
  const SnowBatchSize: Batching.DWord := 512

  /** What the variant's spawn rule guarantees of a particle. */
  predicate Spawned(v: Variant, box: BoundingBox, a: Attribute)
  {
    match v
    case Snow => SnowVariant.Spawned(box, a)
  }

  /** How many rand() calls the variant's spawn rule makes. */
  function SpawnDraws(v: Variant, box: BoundingBox): nat
  {
    match v
    case Snow => SnowVariant.SpawnDraws(box)
  }

  /** resetParticle, dispatched on the variant. */
  function ResetParticle(v: Variant, box: BoundingBox, a: Attribute, src: RandSource, at: nat): (r: Drawn<Attribute>)
    ensures Spawned(v, box, r.value) && SnowVariant.Untouched(a, r.value)
    ensures r.next == at + SpawnDraws(v, box)
  {
    match v
    case Snow => SnowVariant.ResetParticle(box, a, src, at)
  }

  /** addParticle: a default Attribute, respawned, appended at the end. */
  function AddParticle(s: System, src: RandSource, at: nat): (r: Drawn<System>)
    ensures r.value == s.(particles := r.value.particles)
    ensures |r.value.particles| == |s.particles| + 1
    ensures r.value.particles[..|s.particles|] == s.particles
    ensures var a := r.value.particles[|s.particles|];
            Spawned(s.variant, s.box, a) && a.lifeTime == 0.0 && a.age == 0.0
    ensures r.next == at + SpawnDraws(s.variant, s.box)
  {
    var a := ResetParticle(s.variant, s.box, Fresh, src, at);
    Drawn(s.(particles := s.particles + [a.value]), a.next)
  }

  /** n calls of addParticle in a row: n - 1 of them, then one more. */
  function Populate(s: System, n: nat, src: RandSource, at: nat): (r: Drawn<System>)
    ensures r.value == s.(particles := r.value.particles)
    ensures |r.value.particles| == |s.particles| + n
    ensures r.value.particles[..|s.particles|] == s.particles
    ensures forall i :: |s.particles| <= i < |r.value.particles| ==>
              var a := r.value.particles[i];
              Spawned(s.variant, s.box, a) && a.lifeTime == 0.0 && a.age == 0.0
    ensures r.next == After(at, n, SpawnDraws(s.variant, s.box))
    decreases n
  {
    if n == 0 then Drawn(s, at)
    else
      var prev := Populate(s, n - 1, src, at);
      var last := AddParticle(prev.value, src, prev.next);
      assert last.value.particles[..|s.particles|] == prev.value.particles[..|s.particles|];
      GroupCursor(at, SpawnDraws(s.variant, s.box), n);
      last
  }

  /** The cursor after i - 1 groups of d draws and then one more group. */
  lemma GroupCursor(at: nat, d: nat, i: nat)
    requires 0 < i
    ensures After(at, i - 1, d) + d == After(at, i, d)
    ensures After(at + d, i - 1, d) == After(at, i, d)
  {
  }

  /** The particle added last is spawned from the last group of draws. */
  lemma PopulateLast(s: System, n: nat, src: RandSource, at: nat, i: nat)
    requires i + 1 == n
    ensures Populate(s, n, src, at).value.particles[|s.particles| + i]
            == ResetParticle(s.variant, s.box, Fresh, src, After(at, i, SpawnDraws(s.variant, s.box))).value
  {
    var prev := Populate(s, n - 1, src, at);
    assert Populate(s, n, src, at) == AddParticle(prev.value, src, prev.next);
    assert |prev.value.particles| == |s.particles| + i;
  }

  /** Adding more particles leaves the ones added earlier alone. */
  lemma PopulateKeeps(s: System, n: nat, src: RandSource, at: nat, i: nat)
    requires i + 1 < n
    ensures Populate(s, n, src, at).value.particles[|s.particles| + i]
            == Populate(s, n - 1, src, at).value.particles[|s.particles| + i]
  {
    var prev := Populate(s, n - 1, src, at);
    var r := AddParticle(prev.value, src, prev.next).value;
    assert Populate(s, n, src, at).value == r;
    assert r.particles[|s.particles| + i] == r.particles[..|prev.value.particles|][|s.particles| + i];
  }

  /** The particle added i-th is spawned from the i-th group of draws. */
  lemma {:induction false} PopulateAt(s: System, n: nat, src: RandSource, at: nat, i: nat)
    requires i < n
    ensures Populate(s, n, src, at).value.particles[|s.particles| + i]
            == ResetParticle(s.variant, s.box, Fresh, src, After(at, i, SpawnDraws(s.variant, s.box))).value
    decreases n
  {
    if i == n - 1 {
      PopulateLast(s, n, src, at, i);
    } else {
      PopulateAt(s, n - 1, src, at, i);
      PopulateKeeps(s, n, src, at, i);
    }
  }

  /** The k-th particle added is spawned from the k-th group of draws. */
  lemma PopulateInOrder(s: System, n: nat, src: RandSource, at: nat)
    ensures var r := Populate(s, n, src, at).value;
            forall i :: 0 <= i < n ==>
              r.particles[|s.particles| + i]
              == ResetParticle(s.variant, s.box, Fresh, src, After(at, i, SpawnDraws(s.variant, s.box))).value
  {
    forall i | 0 <= i < n
      ensures Populate(s, n, src, at).value.particles[|s.particles| + i]
              == ResetParticle(s.variant, s.box, Fresh, src, After(at, i, SpawnDraws(s.variant, s.box))).value
    {
      PopulateAt(s, n, src, at, i);
    }
  }

  /** Snow(box, numParticles): point size 1, a 2048-vertex buffer in batches of
      512 starting at offset 0, and numParticles particles added one by one (none
      when numParticles is not positive, as the counting loop never runs). */
  function NewSnow(box: BoundingBox, numParticles: int, src: RandSource, at: nat): (r: Drawn<System>)
    ensures r.value.variant == Snow && r.value.box == box && r.value.pointSize == 1.0
    ensures r.value.ring == Batching.Ring(2048, 0, 512)
    ensures |r.value.particles| == if numParticles > 0 then numParticles else 0
    ensures forall i :: 0 <= i < |r.value.particles| ==>
              var a := r.value.particles[i];
              SnowVariant.Spawned(box, a) && a.lifeTime == 0.0 && a.age == 0.0
    ensures r.next == at + |r.value.particles| * SnowVariant.SpawnDraws(box)
  {
    var empty := System(Snow, box, 1.0, [], Batching.Ring(SnowBufferSize, 0, SnowBatchSize));
    Populate(empty, if numParticles > 0 then numParticles else 0, src, at)
  }

  /** The flakes of a new snow system are spawned one after the other, flake i
      from the i-th group of draws. */
  lemma NewSnowInOrder(box: BoundingBox, numParticles: int, src: RandSource, at: nat)
    ensures var ps := NewSnow(box, numParticles, src, at).value.particles;
            forall i :: 0 <= i < |ps| ==>
              ps[i] == SnowVariant.ResetParticle(box, Fresh, src, After(at, i, SnowVariant.SpawnDraws(box))).value
  {
    var empty := System(Snow, box, 1.0, [], Batching.Ring(SnowBufferSize, 0, SnowBatchSize));
    var n := if numParticles > 0 then numParticles else 0;
    var ps := Populate(empty, n, src, at).value.particles;
    assert NewSnow(box, numParticles, src, at).value.particles == ps;
    PopulateInOrder(empty, n, src, at);
    forall i | 0 <= i < |ps|
      ensures ps[i] == SnowVariant.ResetParticle(box, Fresh, src, After(at, i, SnowVariant.SpawnDraws(box))).value
    {
      assert ps[|empty.particles| + i] == ResetParticle(Snow, box, Fresh, src, After(at, i, SpawnDraws(Snow, box))).value;
    }
  }

  /** resetParticle applied to every particle, in list order. */
  function ResetAll(v: Variant, box: BoundingBox, ps: seq<Attribute>, src: RandSource, at: nat): (r: Drawn<seq<Attribute>>)
    ensures |r.value| == |ps|
    ensures forall i :: 0 <= i < |ps| ==>
              Spawned(v, box, r.value[i]) && SnowVariant.Untouched(ps[i], r.value[i])
    ensures r.next == at + |ps| * SpawnDraws(v, box)
    decreases |ps|
  {
    if |ps| == 0 then Drawn([], at)
    else
      var first := ResetParticle(v, box, ps[0], src, at);
      var rest := ResetAll(v, box, ps[1..], src, first.next);
      var all := [first.value] + rest.value;
      assert forall i :: 1 <= i < |ps| ==> ps[i] == ps[1..][i - 1] && all[i] == rest.value[i - 1];
      assert (|ps| - 1) * SpawnDraws(v, box) + SpawnDraws(v, box) == |ps| * SpawnDraws(v, box);
      Drawn(all, rest.next)
  }

  /** Particle i is respawned from the i-th group of draws. */
  lemma {:induction false} ResetAllAt(v: Variant, box: BoundingBox, ps: seq<Attribute>, src: RandSource, at: nat, i: nat)
    requires i < |ps|
    ensures ResetAll(v, box, ps, src, at).value[i]
            == ResetParticle(v, box, ps[i], src, After(at, i, SpawnDraws(v, box))).value
    decreases i
  {
    var d := SpawnDraws(v, box);
    var first := ResetParticle(v, box, ps[0], src, at);
    var rest := ResetAll(v, box, ps[1..], src, first.next).value;
    assert ResetAll(v, box, ps, src, at).value == [first.value] + rest;
    if i == 0 {
      assert After(at, 0, d) == at;
    } else {
      ResetAllAt(v, box, ps[1..], src, first.next, i - 1);
      assert ps[1..][i - 1] == ps[i];
      GroupCursor(at, d, i);
    }
  }

  /** reset walks the list in order: particle i is respawned from the i-th group
      of draws. */
  lemma ResetAllInOrder(v: Variant, box: BoundingBox, ps: seq<Attribute>, src: RandSource, at: nat)
    ensures var r := ResetAll(v, box, ps, src, at).value;
            forall i :: 0 <= i < |ps| ==>
              r[i] == ResetParticle(v, box, ps[i], src, After(at, i, SpawnDraws(v, box))).value
  {
    forall i | 0 <= i < |ps|
      ensures ResetAll(v, box, ps, src, at).value[i]
              == ResetParticle(v, box, ps[i], src, After(at, i, SpawnDraws(v, box))).value
    {
      ResetAllAt(v, box, ps, src, at, i);
    }
  }

  /** reset: the list keeps its length and every particle is respawned. */
  function Reset(s: System, src: RandSource, at: nat): (r: Drawn<System>)
    ensures r.value == s.(particles := r.value.particles)
    ensures |r.value.particles| == |s.particles|
    ensures forall i :: 0 <= i < |s.particles| ==>
              Spawned(s.variant, s.box, r.value.particles[i])
              && SnowVariant.Untouched(s.particles[i], r.value.particles[i])
    ensures r.next == at + |s.particles| * SpawnDraws(s.variant, s.box)
  {
    var all := ResetAll(s.variant, s.box, s.particles, src, at);
    Drawn(s.(particles := all.value), all.next)
  }

  /** update, dispatched on the variant; only the particles change. */
  function Update(s: System, dt: real, src: RandSource, at: nat): (r: Drawn<System>)
    ensures r.value == s.(particles := r.value.particles)
    ensures |r.value.particles| == |s.particles|
    ensures forall i :: 0 <= i < |s.particles| ==>
              SnowVariant.Stepped(s.box, dt, s.particles[i], r.value.particles[i])
    ensures r.next == After(at, SnowVariant.CountEscapes(s.box, s.particles, dt), SnowVariant.SpawnDraws(s.box))
  {
    match s.variant
    case Snow =>
      var moved := SnowVariant.Update(s.box, s.particles, dt, src, at);
      Drawn(s.(particles := moved.value), moved.next)
  }

  /** render on the system's own particles and ring; only the ring changes. */
  function Render(s: System): (r: (seq<Batching.Event>, System))
    ensures r.1 == s.(ring := r.1.ring)
    ensures IsEmpty(s.particles) ==> r == ([], s)
    ensures !IsEmpty(s.particles) ==> |r.0| >= 4 && r.0[0] == Batching.Pre && r.0[|r.0| - 1] == Batching.Post
    ensures Batching.Written(r.0) == Vertices(AliveOnly(s.particles))
    ensures 0 < s.ring.batch ==>
              && Batching.DrawCounts(r.0) == Batching.ExpectedDraws(CountAlive(s.particles), s.ring.batch)
              && Batching.Disciplined(s.ring.batch, r.0)
    ensures Batching.Valid(s.ring) && !IsEmpty(s.particles) ==>
              && Batching.Valid(r.1.ring)
              && Batching.Rewind(s.ring.size, r.1.ring.offset)
                 == (Batching.Rewind(s.ring.size, s.ring.offset)
                     + Batching.FrameStep(s.ring.batch, CountAlive(s.particles))) % s.ring.size
  {
    var f := Batching.Render(s.ring, s.particles);
    Batching.RenderSummary(s.ring, s.particles);
    (f.events, s.(ring := f.ring))
  }

  /** The steady state of a snow system in a well-formed box: the ring is valid
      and every particle is settled (alive, white, inside, falling). */
  predicate SnowSteady(s: System)
  {
    && s.variant == Snow
    && WellFormed(s.box)
    && Batching.Valid(s.ring)
    && forall i :: 0 <= i < |s.particles| ==> SnowVariant.Settled(s.box, s.particles[i])
  }

  /** A snow system built in a well-formed box starts in the steady state. */
  lemma NewSnowSteady(box: BoundingBox, numParticles: int, src: RandSource, at: nat)
    requires WellFormed(box)
    ensures SnowSteady(NewSnow(box, numParticles, src, at).value)
  {
    var s := NewSnow(box, numParticles, src, at).value;
    assert Batching.Valid(s.ring) by {
      Batching.DivUnique(2048, 512, 4, 0);
      Batching.DivUnique(0, 512, 0, 0);
    }
    forall i | 0 <= i < |s.particles|
      ensures SnowVariant.Settled(box, s.particles[i])
    {
      SnowVariant.SpawnedIsSettled(box, s.particles[i]);
    }
  }

  /** reset, update and render all keep a snow system in the steady state. */
  lemma SteadyPreserved(s: System, dt: real, src: RandSource, at: nat)
    requires SnowSteady(s)
    ensures SnowSteady(Reset(s, src, at).value)
    ensures SnowSteady(Update(s, dt, src, at).value)
    ensures SnowSteady(Render(s).1)
  {
    var reset := Reset(s, src, at).value;
    forall i | 0 <= i < |reset.particles|
      ensures SnowVariant.Settled(s.box, reset.particles[i])
    {
      SnowVariant.SpawnedIsSettled(s.box, reset.particles[i]);
    }
    SnowVariant.UpdatePreservesSettled(s.box, s.particles, dt, src, at);
    if |s.particles| > 0 {
      Batching.RenderAdvances(s.ring, s.particles);
    }
  }

  /** A recycling snow system is never dead unless it is empty: isDead holds
      exactly when isEmpty does. */
  lemma SteadyNeverDead(s: System)
    requires SnowSteady(s)
    ensures IsDead(s.particles) <==> IsEmpty(s.particles)
  {
    if |s.particles| > 0 {
      assert s.particles[0].isAlive;
    }
  }
}
